=== FILE: README.md ===
# Ship combat cycle and alert-state helper — a Dafny model

This project models three connected pieces of the game's ship logic.

- **The combat cycle controller** (`ShipAttackCycle`): `init`, `cycle`, `getFixture`, `canFire` and `addMessageMerge`.
  - `cycle` readies every attacker and, unless the cycle is one-way, every defender.
  - It then plays turns until a stop condition holds. The first turn is forced to the attacker side. Later turns go to a "ready" ship: live, not yet used on its side, and passing `canFire`. A coin decides when both sides have one.
  - The acting ship fires its energy phase at the opposing live pool, then its projectile phase at the part of that pool still live.
  - Finally it saves every attacker, then every defender.
- **The activation/alert helper** (`ActivatorDeactivatorHelper`). It covers:
  - single-ship and fleet activate and deactivate, with their error-to-outcome mapping and save rules;
  - the guarded alert transition `setAlertStateShip` and its Red/Yellow/Green system cascades;
  - the public `setAlertState` and `setAlertStateFleet`.
- **The shutdown action** (`Shutdown::handle`). It switches off every running system except life support and troop quarters, forces the alert to Green, and runs red-alert checks only if the ship was warping or cloaked beforehand.

The model is functional:

- Ships are immutable records (`Ships.Ship`). The combat world is a `Roster`, a map from ship id to ship.
- Collaborators whose code is not part of this model are function-valued fields of a datatype. In `AttackCycle.Weapons` these are `FightLib::ready`, the two weapon phases and the liveness test behind `filterInactiveShips`. In `ActivatorDeactivator.Collaborators` they are the ship-system manager's activate/deactivate and the entity's alert setter.
- Randomness (`array_rand`, `rand(1, 2)`) is an oracle `Dice` indexed by turn number.
- Thrown exceptions are a `Failure`/`raised` value. Information lines are a structured `Info` datatype instead of German text with markup. Repository saves are an output trace of ship ids.

Files:

- `foundation.dfy`:
  - `Results`: `Option`, `Result`.
  - `Seqs`: order-preserving filter, distinct elements, and `Extends` (prefix) with its lemmas.
  - `Ships`: the ship record, system types, alert levels and `canFire`.
- `attack_cycle.dfy`: module `AttackCycle`.
- `activator.dfy`: module `ActivatorDeactivator`.
- `shutdown.dfy`: module `ShutdownAction`.

Points where the code behaves differently from what its interface suggests, each modelled as the code does it:

- **Fleet batches can abort.** `deactivateIntern` absorbs only four error kinds, and any other ship-system error escapes. So `deactivateFleet`, `setAlertStateFleet` (through the Green cascade), single-ship `deactivate` and `Shutdown::handle` can stop part-way instead of finishing the batch. The model returns that error and keeps the saves and lines already issued.
- **Alert refusals are not errors.** `setAlertStateShip` catches the entity's energy error, emits a line and returns `false`. It raises only what the Green cascade lets escape.
- **Exhaustion compares counts.** The loop stops when the number of used ids reaches the length of each group list (lines 130-136), not when every listed ship has acted. The model does the same. Its termination measure counts distinct unused ids, so duplicate ids in a group do not break the bound.
- **The first strike skips the firing test.** It picks among the live attackers without the `canFire` test. `AttackCycle.FirstStrikeSkipsCanFire` states this.
- **The one-way check at line 169 is redundant.** The defender ready filter already excludes every defender in one-way mode. `AttackCycle.StepSelection` and `AttackCycle.LoopOneWay` state the resulting behaviour.

## Model

| member | source | states |
|---|---|---|
| AttackCycle.Init | src/Module/Ship/Lib/ShipAttackCycle.php:57-72 | init records the two groups and the one-way flag, sets first strike, empties the log and both used sets; the fresh state satisfies the used-within-group invariant and its measure is at most the total group size |
| AttackCycle.CycleState.AddMessageMerge | src/Module/Ship/Lib/ShipAttackCycle.php:191-194 | merging messages keeps the old log as a prefix, appends exactly the new lines, and changes nothing else |
| AttackCycle.CycleState.MarkUsed | src/Module/Ship/Lib/ShipAttackCycle.php:110 | the actor is added to its own side's used set; the other side's set and every other field are unchanged |
| AttackCycle.Coin | src/Module/Ship/Lib/ShipAttackCycle.php:168 | the coin of rand(1, 2) is always 1 or 2 |
| AttackCycle.FilterInactive | src/Module/Ship/Lib/ShipAttackCycle.php:138-139 | a ship is in the live pool exactly when it is in the group and the liveness test holds for its current state |
| AttackCycle.PoolEmptyIffNoneLive | src/Module/Ship/Lib/ShipAttackCycle.php:138-143 | a side's live pool is empty exactly when no ship of its group is live |
| Ships.CanFire | src/Module/Ship/Lib/ShipAttackCycle.php:201-216 | a ship can fire exactly when it is not disabled, its reserve is not 0, its sensors are on and it is able to attack (a definition; `AttackCycle.ReadyIffEligible` states how the ready filter uses it) |
| AttackCycle.ReadyOf | src/Module/Ship/Lib/ShipAttackCycle.php:150-161 | the two ready closures: a ship of the live pool is kept when it is unused on its side, can fire, and is not a defender of a one-way cycle (a definition; `AttackCycle.ReadyIffEligible` is its partner) |
| AttackCycle.ReadyIffEligible | src/Module/Ship/Lib/ShipAttackCycle.php:150-161 | a ship is in its side's ready list iff it is in the group, live, unused on that side, passes canFire (not disabled, reserve not 0, sensors on, able to attack — lines 201-216) and is not a defender of a one-way cycle; the list is empty iff no such ship exists |
| AttackCycle.GetFixture | src/Module/Ship/Lib/ShipAttackCycle.php:105-116 | the die() case arises exactly for an empty candidate list; otherwise the actor is one of the candidates, the target pool is passed through, and the actor is added to the side's used set with nothing else changed |
| AttackCycle.Fire | src/Module/Ship/Lib/ShipAttackCycle.php:177-179 | the energy phase aims at the whole target pool, the projectile phase at the part of it still live after the energy phase (a subset); the turn records each phase's lines, the log grows by the energy lines followed by the projectile lines, and the ships afterwards are those the projectile phase returned |
| AttackCycle.Resolve | src/Module/Ship/Lib/ShipAttackCycle.php:107 | a turn dies exactly when getFixture had no candidate; otherwise it fires for the chosen side, keeps the cycle state except for the log, and appends exactly the turn's lines to the log |
| AttackCycle.Step | src/Module/Ship/Lib/ShipAttackCycle.php:129-179 | one loop iteration never reaches die(); a played turn's actor belongs to its side's group and (after the first strike) was unused, the first strike is the attacker's, the first-strike flag is cleared, exactly the actor is added to its side's used set, and the log grows by exactly the turn's energy and projectile lines |
| AttackCycle.StepHalts | src/Module/Ship/Lib/ShipAttackCycle.php:133-164 | an iteration breaks exactly when both used sets have reached their group sizes, or a side has no live ship, or (after the first strike) neither side has a ready ship |
| AttackCycle.StepSelection | src/Module/Ship/Lib/ShipAttackCycle.php:145-174 | the first strike goes to a live attacker; later turns go to a ready ship, and the defender side acts exactly when it has a ready ship and either the attacker side has none or the coin shows 2 |
| AttackCycle.StepPhases | src/Module/Ship/Lib/ShipAttackCycle.php:166-179 | a played turn's energy targets are the live pool of the opposing group, and its projectile targets the still-live part of that pool after the energy phase |
| AttackCycle.StepOutcome | src/Module/Ship/Lib/ShipAttackCycle.php:177-179 | a played turn records the energy phase's and the projectile phase's lines, the log grows by exactly them in that order, and the ships afterwards are those the projectile phase returned |
| AttackCycle.StepShrinks | src/Module/Ship/Lib/ShipAttackCycle.php:110 | a played turn never increases the number of unused distinct ids, and strictly decreases it whenever the acting ship had not been used on its side; in particular on every turn after the first strike, and on the first strike from a state where nobody has acted |
| AttackCycle.FreshActorsDistinct | src/Module/Ship/Lib/ShipAttackCycle.php:150-159 | in a turn list whose actors were always unused, no actor was used beforehand and no ship acts twice for the same side |
| AttackCycle.Loop | src/Module/Ship/Lib/ShipAttackCycle.php:129-180 | the while loop terminates (measure: unused distinct ids, then the first-strike flag), never aborts through die(), leaves the groups and mode unchanged and only appends to the log |
| AttackCycle.LoopEndsHalted | src/Module/Ship/Lib/ShipAttackCycle.php:129-164 | the while loop only ends once a break condition holds on the state and ships it ends with: both used sets full, a side without a live ship, or (after the first strike) no ready ship on either side |
| AttackCycle.LoopPlays | src/Module/Ship/Lib/ShipAttackCycle.php:129-180 | the loop's turns are the ones each iteration plays on the state and ships the previous iteration left, in order, and the final state and ships are those of the iteration that breaks |
| AttackCycle.LoopLog | src/Module/Ship/Lib/ShipAttackCycle.php:129-180 | the log after the loop is the log before it followed by every played turn's energy lines and projectile lines, in turn order |
| AttackCycle.LinesStep | src/Module/Ship/Lib/ShipAttackCycle.php:177-179 | a log grown by a first turn's lines and then by the remaining turns' lines holds all the turns' lines in order |
| AttackCycle.LoopKeepsUsedWithin | src/Module/Ship/Lib/ShipAttackCycle.php:110 | the used sets stay subsets of their groups' ids through the whole loop |
| AttackCycle.LoopBound | src/Module/Ship/Lib/ShipAttackCycle.php:129-136 | the loop plays at most as many turns as there are unused distinct ids (plus one only for a first strike pending with a non-empty used set) |
| AttackCycle.LoopActorsFresh | src/Module/Ship/Lib/ShipAttackCycle.php:150-174 | starting from a state with no pending first strike on used ships, every turn's actor had not acted yet on its side |
| AttackCycle.LoopActorsInGroup | src/Module/Ship/Lib/ShipAttackCycle.php:145-174 | every turn's actor belongs to the group of the side it acted for |
| AttackCycle.LoopTargets | src/Module/Ship/Lib/ShipAttackCycle.php:166-179 | on every turn the energy targets belong to the opposing group and the projectile targets are a subset of the energy targets |
| AttackCycle.LoopOneWay | src/Module/Ship/Lib/ShipAttackCycle.php:156-172 | a one-way cycle never lets a defender act |
| AttackCycle.LoopStart | src/Module/Ship/Lib/ShipAttackCycle.php:145-148 | the loop plays no turn exactly when its stop conditions hold at the start, and a pending first strike is played by the attacker side |
| AttackCycle.ReadyAll | src/Module/Ship/Lib/ShipAttackCycle.php:120-122 | readiness is requested for exactly the listed ships, in order, and the first ship's lines open the merged readiness log |
| AttackCycle.ReadyAllConcat | src/Module/Ship/Lib/ShipAttackCycle.php:120-127 | readying two lists one after the other logs the first list's lines and then the second's, with the second readied on the ships as the first left them |
| AttackCycle.ReadyAllAppend | src/Module/Ship/Lib/ShipAttackCycle.php:120-122 | readying one more ship appends exactly the lines `ready` returns for it, on the ships as the earlier calls left them, so the log holds every ship's lines in list order |
| AttackCycle.ReadinessJoined | src/Module/Ship/Lib/ShipAttackCycle.php:120-127 | the attacker pass followed by the defender pass (skipped when one-way) logs what one pass over the joined lists logs |
| AttackCycle.Cycle | src/Module/Ship/Lib/ShipAttackCycle.php:118-189 | readiness is requested for every attacker and, unless one-way, every defender, in that order; the log starts with the old log followed by the readiness lines of every attacker and then, unless one-way, every defender, and the turns only append after them; every attacker and then every defender is saved once per list entry whatever happened; groups and mode are unchanged |
| AttackCycle.CycleLog | src/Module/Ship/Lib/ShipAttackCycle.php:118-180 | the log `cycle` leaves is the old log, then the readiness lines of every attacker and (unless one-way) every defender, then each played turn's energy and projectile lines in turn order, and nothing else |
| AttackCycle.CycleEndsHalted | src/Module/Ship/Lib/ShipAttackCycle.php:118-180 | `cycle` returns only once a break condition of its loop holds, and its turns are the ones the loop iterations play from the prepared state on the ships readiness left |
| AttackCycle.CyclePreparesLoop | src/Module/Ship/Lib/ShipAttackCycle.php:120-129 | the loop starts from the cycle state with all readiness lines appended and nothing else changed |
| AttackCycle.CycleAfterInit | src/Module/Ship/Lib/ShipAttackCycle.php:57-189 | a cycle started by init plays at most &#124;attacker&#124; + &#124;defender&#124; turns, no ship acts twice for one side, the used sets stay in their groups, the first turn is the attacker's, a one-way cycle has attacker turns only, actors come from their own group and projectile targets narrow the energy targets |
| AttackCycle.EmptyAttackerGroup | src/Module/Ship/Lib/ShipAttackCycle.php:138-143 | with an empty attacker group no turn is played, the log holds only the defenders' readiness lines (none when one-way), and the defenders are still saved |
| AttackCycle.FirstStrikeSkipsCanFire | src/Module/Ship/Lib/ShipAttackCycle.php:145-148 | in a one-against-one cycle the attacker takes the first turn whenever both ships are live, with no firing test required |
| ActivatorDeactivator.ActivationNoteOf | src/Module/Ship/Lib/ActivatorDeactivatorHelper.php:77-98 | every activation error yields a failure line; the seven dedicated kinds yield a line from which the error (with needed energy or refusal reason) is read back exactly, all other kinds the generic line |
| ActivatorDeactivator.DeactivationNoteOf | src/Module/Ship/Lib/ActivatorDeactivatorHelper.php:161-169 | exactly already-off, not-deactivatable, conditions-not-met and not-found get a line, from which the error is read back; the other kinds get none |
| ActivatorDeactivator.ActivateIntern | src/Module/Ship/Lib/ActivatorDeactivatorHelper.php:66-101 | true exactly when the manager's activate succeeds; always one line for that ship and system, reporting success exactly on success and the mapped error otherwise; a failure leaves the ship unchanged, a success takes the manager's new set of running systems |
| ActivatorDeactivator.DeactivateIntern | src/Module/Ship/Lib/ActivatorDeactivatorHelper.php:150-172 | an error escapes exactly when the manager fails with a kind the helper does not absorb; otherwise true exactly on success with one line reporting it, and a refused deactivation leaves the ship unchanged |
| ActivatorDeactivator.Activate | src/Module/Ship/Lib/ActivatorDeactivatorHelper.php:44-64 | the result is the manager's success, and the ship is saved exactly then, once; the ship and the one line are those of `activateIntern` (`ActivatorDeactivator.ActivateIntern`): on success the manager's running systems and an activated line, otherwise the unchanged ship and the mapped error's line |
| ActivatorDeactivator.Deactivate | src/Module/Ship/Lib/ActivatorDeactivatorHelper.php:132-148 | the ship is saved once whatever the outcome, unless an unabsorbed error escapes first, in which case nothing is saved and no line is emitted; otherwise the ship and the one line are those of `deactivateIntern` (`ActivatorDeactivator.DeactivateIntern`), whose note names the absorbed error read back by `ActivatorDeactivator.DeactivationNoteOf` |
| ActivatorDeactivator.DeactivateAlreadyOffIdempotent | src/Module/Ship/Lib/ActivatorDeactivatorHelper.php:146-162 | when the manager reports a system already off, deactivate leaves the ship unchanged, reports already-off, saves it, and a second call gives the same outcome |
| ActivatorDeactivator.ActivateEach | src/Module/Ship/Lib/ActivatorDeactivatorHelper.php:308-331 | the activation cascade emits one activation report per listed system, about this ship, in list order, the first being the manager's answer for the ship as it came in; failures are ignored, nothing is raised, and only running systems and reserve change |
| ActivatorDeactivator.ActivateEachAppend | src/Module/Ship/Lib/ActivatorDeactivatorHelper.php:308-331 | one more system in the activation list appends exactly the line `activateIntern` gives for it, asked of the ship as the earlier systems left it, and the ship is the one that call returns; so every line is the manager's answer in order |
| ActivatorDeactivator.DeactivateInstalledAppend | src/Module/Ship/Lib/ActivatorDeactivatorHelper.php:333-346 | one more system in the deactivation list changes nothing once an error escaped or when it is not installed; otherwise `deactivateIntern` is asked of the ship as the earlier systems left it, and either its line is appended or its error escapes with the earlier lines kept |
| ActivatorDeactivator.ActivateEachArms | src/Module/Ship/Lib/ActivatorDeactivatorHelper.php:308-331 | with a manager that switches on what it is asked to and nothing off, every listed system ends up running and nothing running is switched off |
| ActivatorDeactivator.DeactivateInstalled | src/Module/Ship/Lib/ActivatorDeactivatorHelper.php:333-346 | the deactivation cascade tries, in order, exactly the listed systems the ship has installed, each line a deactivation report about this ship; only an unabsorbed error stops it; only running systems and reserve change |
| ActivatorDeactivator.AlertCascade | src/Module/Ship/Lib/ActivatorDeactivatorHelper.php:291-301 | only the Green cascade can raise; Red and Yellow emit only activation reports and Green only deactivation reports, all about this ship; every line is such a report; every cascade keeps the hull |
| ActivatorDeactivator.AlertBlocked | src/Module/Ship/Lib/ActivatorDeactivatorHelper.php:261-276 | the three guards of setAlertStateShip: a construction, too little crew, or Red asked for while cloaked (a definition; `ActivatorDeactivator.SetAlertStateShip` states what each guard does) |
| ActivatorDeactivator.SetAlertStateShip | src/Module/Ship/Lib/ActivatorDeactivatorHelper.php:259-306 | construction, then crew, then cloak-versus-Red refuse with one line (the construction, crew or cloak line respectively), no change and no save; lack of energy refuses with the needed amount; the result is true exactly when the base change went through and no error escaped, then the alert is the target and the ship was saved twice; the alert never changes on a refusal; once the change is accepted the outcome is that of the accepted-change step (`ActivatorDeactivator.ApplyAlert`) for the entity's answer |
| ActivatorDeactivator.ApplyAlert | src/Module/Ship/Lib/ActivatorDeactivatorHelper.php:278-305 | after an accepted base change the ship is saved, saved again unless the Green cascade raised, and the result is true exactly when nothing escaped; the lines are the entity's remark (exactly when it gave one) followed by the level's cascade (`ActivatorDeactivator.AlertCascade`) run on the ship at the new level and reserve, every cascade line being a report about this ship of the level's kind; the resulting ship, at the new level, is the one that cascade leaves |
| ActivatorDeactivator.WithRemark | src/Module/Ship/Lib/ActivatorDeactivatorHelper.php:283-285 | the remark line comes first exactly when the entity gave a remark, carries that remark, and is followed by exactly the cascade's lines |
| ActivatorDeactivator.AlertRefusalTouchesNothing | src/Module/Ship/Lib/ActivatorDeactivatorHelper.php:261-289 | a refused alert change reports no system, leaves the ship as it was and saves nothing |
| ActivatorDeactivator.AlertCascadeSystems | src/Module/Ship/Lib/ActivatorDeactivatorHelper.php:291-346 | a successful change to Red reports shields, sensors, phaser, torpedo; to Yellow the sensors; to Green phaser, torpedo, shields as far as installed — each once, in that order, whatever their individual outcomes, as activation reports for Red and Yellow and deactivation reports for Green |
| ActivatorDeactivator.AlertArms | src/Module/Ship/Lib/ActivatorDeactivatorHelper.php:308-331 | with a manager that switches on what it is asked to, a successful change to Red leaves shields, sensors, phaser and torpedo running, and to Yellow the sensors, switching nothing off |
| ActivatorDeactivator.DeactivateInstalledClears | src/Module/Ship/Lib/ActivatorDeactivatorHelper.php:333-346 | with a manager that switches off what it is asked to and nothing on, the deactivation cascade raises nothing and leaves every listed installed system off |
| ActivatorDeactivator.GreenDisarms | src/Module/Ship/Lib/ActivatorDeactivatorHelper.php:298-300 | under that manager, a successful change to Green leaves none of the ship's installed phaser, torpedo or shields running |
| ActivatorDeactivator.SetAlertState | src/Module/Ship/Lib/ActivatorDeactivatorHelper.php:203-226 | the new level is announced after the ship's lines exactly when the transition took effect; everything else is the ship-level outcome |
| ActivatorDeactivator.RunFleet | src/Module/Ship/Lib/ActivatorDeactivatorHelper.php:115-129 | every ship of the fleet is tried in order whatever the earlier ones did, until an error escapes; the summary line follows exactly when nothing escaped and at least one ship succeeded; lines and saves are the ships' own in order |
| ActivatorDeactivator.FleetActivateRun | src/Module/Ship/Lib/ActivatorDeactivatorHelper.php:117-120 | a fleet ship's activation succeeds exactly when the manager's does, and the ship is saved exactly then |
| ActivatorDeactivator.FleetDeactivateRun | src/Module/Ship/Lib/ActivatorDeactivatorHelper.php:188-191 | a fleet ship is saved exactly when its system went off; an unabsorbed error escapes with no line and the ship unchanged; otherwise the ship and the one line are those of `deactivateIntern` for it |
| ActivatorDeactivator.ActivateFleet | src/Module/Ship/Lib/ActivatorDeactivatorHelper.php:103-130 | every ship is attempted, and each ship's run is the single-ship fleet activation of that ship (its line is `activateIntern`'s for it); each is saved exactly when its activation succeeded; the summary appears exactly when some ship succeeded |
| ActivatorDeactivator.DeactivateFleet | src/Module/Ship/Lib/ActivatorDeactivatorHelper.php:174-201 | ships are attempted in order until an unabsorbed error; each ship's run is `ActivatorDeactivator.FleetDeactivateRun` for it, so its ship and line are `deactivateIntern`'s; each is saved exactly when its system went off; the summary appears exactly when nothing escaped and some ship succeeded |
| ActivatorDeactivator.SetAlertStateFleet | src/Module/Ship/Lib/ActivatorDeactivatorHelper.php:228-257 | every ship's transition is run (a success does not skip later ships) until an error escapes; the summary appears exactly when nothing escaped and some ship's transition took effect |
| ShutdownAction.ShutdownTargets | src/Module/Ship/Action/Shutdown/Shutdown.php:44-52 | a system is asked to switch off exactly when it is installed, running, and neither life support nor troop quarters |
| ShutdownAction.Towed | src/Module/Ship/Action/Shutdown/Shutdown.php:40 | the towed ship is the tractor partner when this ship emits the beam, and none otherwise |
| ShutdownAction.TriggersAlertRed | src/Module/Ship/Action/Shutdown/Shutdown.php:42 | the red-alert checks are due when the warp drive or the cloak is on (a definition; `ShutdownAction.Handle` and `ShutdownAction.TriggerReadBeforeShutdown` state when it is read) |
| ShutdownAction.DeactivateRequests | src/Module/Ship/Action/Shutdown/Shutdown.php:45-52 | the requests issued are a prefix of the targets (all of them unless an error escaped), each completed request saved the ship once, and only running systems and reserve change |
| ShutdownAction.DeactivateRequestsReports | src/Module/Ship/Action/Shutdown/Shutdown.php:45-52 | each completed request left exactly one deactivation report about this ship naming the requested system, in request order |
| ShutdownAction.Handle | src/Module/Ship/Action/Shutdown/Shutdown.php:36-86 | the requests are a prefix of the targets and never life support or troop quarters; the saves are those of the requests issued, one per completed request, and the error that escapes (if any) is the one the requests raised. When nothing escapes: every target is requested, the lines are the requests' lines followed by energy-minimised, the ship is the one the requests left with its alert set to Green, red-alert checks run for the ship and then its towed ship exactly when warp or cloak was on beforehand, and the view is set unless those checks ran and destroyed the ship. When an error escapes: it is one the helper does not absorb, the ship, lines and saves of the earlier requests stand, the alert is unchanged, and no check or view follows |
| ShutdownAction.ShutdownAbortKeepsPartialWork | src/Module/Ship/Action/Shutdown/Shutdown.php:45-57 | a shutdown cut short by an escaped error keeps one deactivation report and one save per completed request and never reaches the energy-minimised line |
| ShutdownAction.DeactivateRequestsClear | src/Module/Ship/Action/Shutdown/Shutdown.php:45-52 | with a manager that switches off what it is asked to, every requested system ends off and nothing is switched on |
| ShutdownAction.ShutdownLeavesOnlyExempt | src/Module/Ship/Action/Shutdown/Shutdown.php:44-55 | with such a manager the shutdown succeeds and no installed system except life support and troop quarters is left running |
| ShutdownAction.ShutdownBypassesAlertGuards | src/Module/Ship/Action/Shutdown/Shutdown.php:55 | for a construction or an understaffed ship, setAlertStateShip leaves the ship unchanged while the shutdown still reaches Green |
| ShutdownAction.TriggerReadBeforeShutdown | src/Module/Ship/Action/Shutdown/Shutdown.php:40-63 | a warping ship whose warp drive the shutdown switches off still gets its red-alert checks, starting with itself |

## Left out

- System V semaphores (`acquireSemaphores`/`releaseSemaphores`) are left out: cross-process locking cannot be stated in a sequential model.
- Weapon-phase damage, `FightLib::ready`, the liveness predicate of `filterInactiveShips`, the ship-system manager and the entity's `setAlertState` are collaborators. Their code is not part of this model; they are parameters.
- `rand` and `array_rand` in the combat cycle are an oracle (`Dice`) indexed by turn number; no distribution is modelled.
- `shuffle` in the shutdown action (src/Module/Ship/Action/Shutdown/Shutdown.php:64, 73) only orders the `AlertRedHelper` attack cycles, which are not modelled (see below), so it has no counterpart.
- `getNbs`, `getCloakState` and `getWarpState` are not separate ship flags here. They are read from the set of running systems (`Ships.NbsOn`, `Ships.CloakOn`, `Ships.WarpOn`), so the model assumes the entity keeps those flags in step with its systems.
- The shutdown's `deactivate` calls pass the ship id, and the helper reloads the ship by that id (src/Module/Ship/Action/Shutdown/Shutdown.php:50). The model assumes the reload returns the entity the action already holds, so each request sees the ship as the previous request left it.
- Ship loading by id and user (`ShipLoader`), `request::indInt`, the game controller and `addInformationMergeDown` are I/O. The ship is passed in; lines and saves are output traces.
- `AlertRedHelper` (`checkForAlertRedShips`, `performAttackCycle`) is a collaborator. The model records which ships are checked; whether the ship was destroyed is a parameter of `ShutdownAction.Handle`.
- German message text and BBCode are replaced by the structured `Info` lines.
- The alert level is the three-valued `AlertState`. Integer alert values outside Red/Yellow/Green, which the PHP `switch` would pass with no cascade, are not modelled.
- `addMessageMerge` uses `array_merge`, which overwrites string keys. The collaborators return lists, so it is modelled as concatenation.
- The entity's `setAlertStateGreen`, called by the shutdown, is modelled as setting the level to Green. That call is not followed by a save in the action itself, and the model records only the saves the code issues.
- A failed manager call or a failed base alert change is assumed to leave the ship unchanged. A successful one changes only the running systems and the reserve (`Power`, `AlertShift`).
- ActivatorDeactivator.GreenDisarms: assumes a manager that never refuses to switch off phaser, torpedo or shields. With refusals (no deactivation mode, conditions not met) the system may stay on, as in the code.
- ShutdownAction.Handle: the lines that the red-alert attack cycles merge into the output (lines 68 and 77) are not modelled, so "energy-minimised is the last line" holds only for the lines this model records. The checks themselves appear as `alertRedChecks`.
- ActivatorDeactivator.ActivateEachArms: assumes a manager that never refuses to switch the listed systems on and switches nothing off. With refusals (damage, lack of energy or crew) a system may stay off, as in the code.
- ActivatorDeactivator.AlertArms: assumes the same manager as `ActivatorDeactivator.ActivateEachArms`, for the systems of the Red or Yellow list.
- ShutdownAction.ShutdownLeavesOnlyExempt: assumes a manager that never refuses. It does not claim that life support stays on, since a sound manager may switch dependants off.
- The idempotence of a second `deactivate` on an already-off system depends on the manager's answer. `ActivatorDeactivator.DeactivateAlreadyOffIdempotent` proves the helper's part, given that answer.

=== FILE: activator.dfy ===
/**
 * The helper that switches ship systems on and off and moves a ship between
 * alert levels, for one ship or a whole fleet.  The ship-system manager and the
 * entity's own alert setter are collaborators the helper cannot see; they enter
 * as functions returning a `Result`, so the helper's own rules — which errors it
 * absorbs, which ships it saves, which systems a new alert level touches — are
 * stated exactly.
 */
module ActivatorDeactivator {
  import opened Results
  import opened Seqs
  import opened Ships

  /** The failure kinds the ship-system manager reports. */
  datatype SystemError =
    | AlreadyActive
    | AlreadyOff
    | NotActivatable
    | NotDeactivatable
    | InsufficientEnergy(needed: int)
    | InsufficientCrew
    | SystemDamaged
    | SystemNotFound
    | ActivationConditionsNotMet(reason: string)
    | DeactivationConditionsNotMet(reason: string)
    | GenericSystemError

  /** What a successful switch leaves behind: the new set of running systems and the new reserve. */
  datatype Power = Power(active: set<SystemType>, eps: int)

  /** A successful base alert change: the reserve after paying for it and an optional remark. */
  datatype AlertShift = AlertShift(eps: int, remark: Option<string>)

  /**
   * The collaborators: the system manager's activate and deactivate, and the
   * entity's alert setter, which fails with the energy it would have needed.
   */
  datatype Collaborators = Collaborators(
    activate: (Ship, SystemType) -> Result<Power, SystemError>,
    deactivate: (Ship, SystemType) -> Result<Power, SystemError>,
    setAlert: (Ship, AlertState) -> Result<AlertShift, int>)

  /** The outcome line reported for one activation attempt. */
  datatype ActivationNote =
    | Activated
    | AlreadyOn
    | NoActivationMode
    | EnergyShortfall(needed: int)
    | Damaged
    | ActivationBlocked(reason: string)
    | NotInstalled
    | CrewShortage
    | ActivationFailed

  /** The outcome line reported for one deactivation attempt. */
  datatype DeactivationNote =
    | Deactivated
    | AlreadyInactive
    | NoDeactivationMode
    | DeactivationBlocked(reason: string)
    | Absent

  /** The structured information lines the helper (and the shutdown action) emit. */
  datatype Info =
    | ActivationReport(ship: ShipId, system: SystemType, activation: ActivationNote)
    | DeactivationReport(ship: ShipId, system: SystemType, deactivation: DeactivationNote)
    | FleetActivated(system: SystemType)
    | FleetDeactivated(system: SystemType)
    | ConstructionCannotChangeAlert(ship: ShipId)
    | CrewPreventsAlertChange(ship: ShipId)
    | CloakPreventsRed(ship: ShipId)
    | AlertRemark(ship: ShipId, remark: string)
    | AlertEnergyShortfall(ship: ShipId, needed: int)
    | AlertChanged(level: AlertState)
    | FleetAlertChanged(level: AlertState)
    | EnergyMinimised

  /** The system an activation or deactivation report names; nothing for any other line. */
  function ReportedBy(info: Info): seq<SystemType>
  {
    match info
    case ActivationReport(_, system, _) => [system]
    case DeactivationReport(_, system, _) => [system]
    case _ => []
  }

  /** The systems named by the activation and deactivation reports of `infos`, in order. */
  function ReportedSystems(infos: seq<Info>): seq<SystemType>
  {
    if infos == [] then [] else ReportedBy(infos[0]) + ReportedSystems(infos[1..])
  }

  lemma {:induction false} ReportedSystemsAppend(a: seq<Info>, b: seq<Info>)
    ensures ReportedSystems(a + b) == ReportedSystems(a) + ReportedSystems(b)
    decreases |a|
  {
    if a == [] {
      assert a + b == b;
    } else {
      assert (a + b)[0] == a[0];
      assert (a + b)[1..] == a[1..] + b;
      ReportedSystemsAppend(a[1..], b);
      assert ReportedSystems(a + b) == ReportedBy(a[0]) + ReportedSystems(a[1..] + b);
    }
  }

  /** The error kinds that have a dedicated activation line; every other kind gets the generic one. */
  predicate ActivationSpecific(e: SystemError)
  {
    e.AlreadyActive? || e.NotActivatable? || e.InsufficientEnergy? || e.SystemDamaged?
    || e.ActivationConditionsNotMet? || e.SystemNotFound? || e.InsufficientCrew?
  }

  /** The error kinds `deactivateIntern` absorbs; every other kind escapes to the caller. */
  predicate DeactivationHandled(e: SystemError)
  {
    e.AlreadyOff? || e.NotDeactivatable? || e.DeactivationConditionsNotMet? || e.SystemNotFound?
  }

  /** Reading an activation line back: the error it reports, when the line names one. */
  function ActivationCause(n: ActivationNote): Option<SystemError>
  {
    match n
    case AlreadyOn => Some(AlreadyActive)
    case NoActivationMode => Some(NotActivatable)
    case EnergyShortfall(needed) => Some(InsufficientEnergy(needed))
    case Damaged => Some(SystemDamaged)
    case ActivationBlocked(reason) => Some(ActivationConditionsNotMet(reason))
    case NotInstalled => Some(SystemNotFound)
    case CrewShortage => Some(InsufficientCrew)
    case _ => None
  }

  /** Reading a deactivation line back: the error it reports, when it reports one. */
  function DeactivationCause(n: DeactivationNote): Option<SystemError>
  {
    match n
    case AlreadyInactive => Some(AlreadyOff)
    case NoDeactivationMode => Some(NotDeactivatable)
    case DeactivationBlocked(reason) => Some(DeactivationConditionsNotMet(reason))
    case Absent => Some(SystemNotFound)
    case Deactivated => None
  }

  /**
   * The catch ladder of `activateIntern`: every error gets a failure line, the
   * seven dedicated kinds a line that names them (with the needed energy and the
   * refusal reason kept), the rest the generic line.
   */
  function ActivationNoteOf(e: SystemError): (n: ActivationNote)
    ensures n != Activated
    ensures n == ActivationFailed <==> !ActivationSpecific(e)
    ensures ActivationSpecific(e) ==> ActivationCause(n) == Some(e)
  {
    match e
    case AlreadyActive => AlreadyOn
    case NotActivatable => NoActivationMode
    case InsufficientEnergy(needed) => EnergyShortfall(needed)
    case SystemDamaged => Damaged
    case ActivationConditionsNotMet(reason) => ActivationBlocked(reason)
    case SystemNotFound => NotInstalled
    case InsufficientCrew => CrewShortage
    case _ => ActivationFailed
  }

  /** The catch ladder of `deactivateIntern`: a line for the four absorbed kinds, nothing for the rest. */
  function DeactivationNoteOf(e: SystemError): (n: Option<DeactivationNote>)
    ensures n.Some? <==> DeactivationHandled(e)
    ensures n.Some? ==> n.value != Deactivated && DeactivationCause(n.value) == Some(e)
  {
    match e
    case AlreadyOff => Some(AlreadyInactive)
    case NotDeactivatable => Some(NoDeactivationMode)
    case DeactivationConditionsNotMet(reason) => Some(DeactivationBlocked(reason))
    case SystemNotFound => Some(Absent)
    case _ => None
  }

  /** The ship after a successful switch: only the running systems and the reserve change. */
  function Switched(ship: Ship, p: Power): (s: Ship)
    ensures SameHull(ship, s) && s.active == p.active && s.eps == p.eps
  {
    ship.(active := p.active, eps := p.eps)
  }

  /** `b` differs from `a` at most in its running systems and its reserve. */
  predicate SameHull(a: Ship, b: Ship)
  {
    b == a.(active := b.active, eps := b.eps)
  }

  /** One intern attempt on one ship: the ship afterwards, whether it worked, and its line. */
  datatype Attempt = Attempt(ship: Ship, ok: bool, info: Info)

  /** `activateIntern`: never throws; true exactly when the manager switched the system on. */
  function ActivateIntern(c: Collaborators, ship: Ship, system: SystemType): (r: Attempt)
    ensures r.ok <==> c.activate(ship, system).Success?
    ensures r.info.ActivationReport? && r.info.ship == ship.id && r.info.system == system
    ensures r.info.activation == Activated <==> r.ok
    ensures !r.ok ==> r.ship == ship && r.info.activation == ActivationNoteOf(c.activate(ship, system).error)
    ensures r.ok ==> r.ship.active == c.activate(ship, system).value.active
    ensures SameHull(ship, r.ship)
  {
    match c.activate(ship, system)
    case Success(p) => Attempt(Switched(ship, p), true, ActivationReport(ship.id, system, Activated))
    case Failure(e) => Attempt(ship, false, ActivationReport(ship.id, system, ActivationNoteOf(e)))
  }

  /**
   * `deactivateIntern`: true exactly when the manager switched the system off,
   * false with a line for the four absorbed errors, and any other error escapes
   * as a `Failure` with no line and no change.
   */
  function DeactivateIntern(c: Collaborators, ship: Ship, system: SystemType): (r: Result<Attempt, SystemError>)
    ensures r.Failure? <==> c.deactivate(ship, system).Failure? && !DeactivationHandled(c.deactivate(ship, system).error)
    ensures r.Failure? ==> r.error == c.deactivate(ship, system).error
    ensures r.Success? ==> (r.value.ok <==> c.deactivate(ship, system).Success?)
    ensures r.Success? ==> r.value.info.DeactivationReport? && r.value.info.ship == ship.id && r.value.info.system == system
    ensures r.Success? ==> (r.value.info.deactivation == Deactivated <==> r.value.ok)
    ensures r.Success? && !r.value.ok ==> r.value.ship == ship
    ensures r.Success? && r.value.ok ==> r.value.ship.active == c.deactivate(ship, system).value.active
    ensures r.Success? ==> SameHull(ship, r.value.ship)
  {
    match c.deactivate(ship, system)
    case Success(p) => Success(Attempt(Switched(ship, p), true, DeactivationReport(ship.id, system, Deactivated)))
    case Failure(e) =>
      match DeactivationNoteOf(e)
      case Some(note) => Success(Attempt(ship, false, DeactivationReport(ship.id, system, note)))
      case None => Failure(e)
  }

  /**
   * The observable effect of one public helper call on one ship: the ship
   * afterwards, the lines emitted, the saves issued (by ship id, in order),
   * whether it took effect, and the error that escaped, if any.
   */
  datatype Run = Run(ship: Ship, infos: seq<Info>, saves: seq<ShipId>, ok: bool, raised: Option<SystemError>)

  /** `activate` for one ship: the ship is saved only when the system came on, and that is the result. */
  function Activate(c: Collaborators, ship: Ship, system: SystemType): (r: Run)
    ensures r.ok <==> c.activate(ship, system).Success?
    ensures r.saves == (if r.ok then [ship.id] else [])
    ensures r.raised.None?
    ensures |r.infos| == 1 && r.infos[0].ActivationReport? && r.infos[0].ship == ship.id && r.infos[0].system == system
    ensures !r.ok ==> r.ship == ship
    ensures r.ship == ActivateIntern(c, ship, system).ship && r.infos == [ActivateIntern(c, ship, system).info]
  {
    var a := ActivateIntern(c, ship, system);
    Run(a.ship, [a.info], if a.ok then [ship.id] else [], a.ok, None)
  }

  /**
   * `deactivate` for one ship: saved whatever the outcome, unless an error the
   * helper does not absorb escapes first, in which case nothing is saved.
   */
  function Deactivate(c: Collaborators, ship: Ship, system: SystemType): (r: Run)
    ensures r.raised.Some? <==> c.deactivate(ship, system).Failure? && !DeactivationHandled(c.deactivate(ship, system).error)
    ensures r.raised.Some? ==> r.raised.value == c.deactivate(ship, system).error && r.saves == [] && r.infos == []
    ensures r.raised.None? ==> r.saves == [ship.id] && |r.infos| == 1
    ensures r.raised.None? ==> r.infos[0].DeactivationReport? && r.infos[0].ship == ship.id && r.infos[0].system == system
    ensures r.ok <==> c.deactivate(ship, system).Success?
    ensures !r.ok ==> r.ship == ship
    ensures r.ok ==> r.ship.active == c.deactivate(ship, system).value.active
    ensures SameHull(ship, r.ship)
    ensures r.raised.None? ==>
      r.ship == DeactivateIntern(c, ship, system).value.ship && r.infos == [DeactivateIntern(c, ship, system).value.info]
  {
    match DeactivateIntern(c, ship, system)
    case Success(a) => Run(a.ship, [a.info], [ship.id], a.ok, None)
    case Failure(e) => Run(ship, [], [], false, Some(e))
  }

  /** Calling `deactivate` again on a system the manager reports as already off changes nothing. */
  lemma DeactivateAlreadyOffIdempotent(c: Collaborators, ship: Ship, system: SystemType)
    requires c.deactivate(ship, system) == Failure(AlreadyOff)
    ensures var first := Deactivate(c, ship, system);
      && first.ship == ship
      && first.infos == [DeactivationReport(ship.id, system, AlreadyInactive)]
      && first.saves == [ship.id]
      && Deactivate(c, first.ship, system) == first
  {
  }

  // ---------------------------------------------------------------- cascades

  const RedSystems: seq<SystemType> := [Shields, Nbs, Phaser, Torpedo]
  const YellowSystems: seq<SystemType> := [Nbs]
  const GreenSystems: seq<SystemType> := [Phaser, Torpedo, Shields]

  /** A cascade over several systems of one ship: the ship after, the lines, and an escaped error. */
  datatype Cascade = Cascade(ship: Ship, infos: seq<Info>, raised: Option<SystemError>)

  /** Every line of `infos` is an activation or a deactivation report. */
  predicate OnlyReports(infos: seq<Info>)
  {
    forall i :: 0 <= i < |infos| ==> infos[i].ActivationReport? || infos[i].DeactivationReport?
  }

  /**
   * Every activation or deactivation report among `infos` is about ship `id`,
   * and each is an activation report exactly when `activation` holds.
   */
  predicate ReportsOf(infos: seq<Info>, id: ShipId, activation: bool)
  {
    forall i :: 0 <= i < |infos| && (infos[i].ActivationReport? || infos[i].DeactivationReport?) ==>
      infos[i].ship == id && infos[i].ActivationReport? == activation
  }

  /**
   * `activateIntern` for each of `systems` in order, ignoring individual
   * failures: one activation report per system, the first from the manager's
   * answer for the ship as it came in.
   */
  function ActivateEach(c: Collaborators, ship: Ship, systems: seq<SystemType>): (r: Cascade)
    ensures r.raised.None?
    ensures |r.infos| == |systems|
    ensures forall i :: 0 <= i < |systems| ==>
      r.infos[i].ActivationReport? && r.infos[i].ship == ship.id && r.infos[i].system == systems[i]
    ensures systems != [] ==> r.infos[0] == ActivateIntern(c, ship, systems[0]).info
    ensures ReportedSystems(r.infos) == systems
    ensures SameHull(ship, r.ship)
    decreases |systems|
  {
    if systems == [] then Cascade(ship, [], None)
    else
      var a := ActivateIntern(c, ship, systems[0]);
      var rest := ActivateEach(c, a.ship, systems[1..]);
      Cascade(rest.ship, [a.info] + rest.infos, None)
  }

  /** Membership in a ship's installed systems, as a test. */
  function InstalledIn(systems: seq<SystemType>): SystemType -> bool
  {
    t => t in systems
  }

  /**
   * `deactivateIntern` for each of `systems` in order that the ship has
   * installed; an error the helper does not absorb stops the cascade and escapes.
   */
  function DeactivateInstalled(c: Collaborators, ship: Ship, systems: seq<SystemType>): (r: Cascade)
    ensures r.raised.None? ==> ReportedSystems(r.infos) == Filter(systems, InstalledIn(ship.systems))
    ensures r.raised.Some? ==> !DeactivationHandled(r.raised.value)
    ensures forall i :: 0 <= i < |r.infos| ==> r.infos[i].DeactivationReport? && r.infos[i].ship == ship.id
    ensures SameHull(ship, r.ship)
    decreases |systems|
  {
    if systems == [] then Cascade(ship, [], None)
    else if !HasSystem(ship, systems[0]) then DeactivateInstalled(c, ship, systems[1..])
    else
      match DeactivateIntern(c, ship, systems[0])
      case Failure(e) => Cascade(ship, [], Some(e))
      case Success(a) =>
        var rest := DeactivateInstalled(c, a.ship, systems[1..]);
        assert ([a.info] + rest.infos)[1..] == rest.infos;
        Cascade(rest.ship, [a.info] + rest.infos, rest.raised)
  }

  /**
   * The activation cascade grows one system at a time: one more system appends
   * exactly the line `activateIntern` gives for it, asked of the ship as the
   * earlier systems left it.
   */
  lemma {:induction false} ActivateEachAppend(c: Collaborators, ship: Ship, systems: seq<SystemType>, t: SystemType)
    ensures var before := ActivateEach(c, ship, systems);
      var a := ActivateIntern(c, before.ship, t);
      var after := ActivateEach(c, ship, systems + [t]);
      after.ship == a.ship && after.infos == before.infos + [a.info]
    decreases |systems|
  {
    if systems == [] {
      assert [] + [t] == [t];
    } else {
      var tail := systems[1..];
      var first := ActivateIntern(c, ship, systems[0]);
      var rest := ActivateEach(c, first.ship, tail);
      var last := ActivateIntern(c, rest.ship, t);
      AppendKeepsHead(systems, t);
      ActivateEachAppend(c, first.ship, tail, t);
      assert [first.info] + (rest.infos + [last.info]) == ([first.info] + rest.infos) + [last.info];
    }
  }

  /**
   * The deactivation cascade grows one system at a time: after an escape nothing
   * more is tried; a system the ship lacks is skipped; otherwise `deactivateIntern`
   * is asked of the ship as the earlier systems left it, and either its line is
   * appended or its error escapes.
   */
  lemma {:induction false} DeactivateInstalledAppend(c: Collaborators, ship: Ship, systems: seq<SystemType>, t: SystemType)
    ensures var before := DeactivateInstalled(c, ship, systems);
      var after := DeactivateInstalled(c, ship, systems + [t]);
      before.raised.Some? || !HasSystem(ship, t) ==> after == before
    ensures var before := DeactivateInstalled(c, ship, systems);
      var after := DeactivateInstalled(c, ship, systems + [t]);
      var d := DeactivateIntern(c, before.ship, t);
      before.raised.None? && HasSystem(ship, t) && d.Failure? ==>
        after.ship == before.ship && after.infos == before.infos && after.raised == Some(d.error)
    ensures var before := DeactivateInstalled(c, ship, systems);
      var after := DeactivateInstalled(c, ship, systems + [t]);
      var d := DeactivateIntern(c, before.ship, t);
      before.raised.None? && HasSystem(ship, t) && d.Success? ==>
        after.ship == d.value.ship && after.infos == before.infos + [d.value.info] && after.raised.None?
    decreases |systems|
  {
    if systems == [] {
      assert [] + [t] == [t];
    } else {
      var tail := systems[1..];
      AppendKeepsHead(systems, t);
      if !HasSystem(ship, systems[0]) {
        DeactivateInstalledAppend(c, ship, tail, t);
      } else {
        match DeactivateIntern(c, ship, systems[0])
        case Failure(e) =>
        case Success(a) =>
          DeactivateInstalledAppend(c, a.ship, tail, t);
          var rest := DeactivateInstalled(c, a.ship, tail);
          if rest.raised.None? && HasSystem(ship, t) {
            var d := DeactivateIntern(c, rest.ship, t);
            if d.Success? {
              assert [a.info] + (rest.infos + [d.value.info]) == ([a.info] + rest.infos) + [d.value.info];
            }
          }
      }
    }
  }

  /** The cascade each alert level triggers once the base change has gone through. */
  function AlertCascade(c: Collaborators, ship: Ship, level: AlertState): (r: Cascade)
    ensures level != Green ==> r.raised.None?
    ensures ReportsOf(r.infos, ship.id, level != Green)
    ensures OnlyReports(r.infos)
    ensures SameHull(ship, r.ship)
  {
    match level
    case Red => ActivateEach(c, ship, RedSystems)
    case Yellow => ActivateEach(c, ship, YellowSystems)
    case Green => DeactivateInstalled(c, ship, GreenSystems)
  }

  /** The three guards of `setAlertStateShip`, any of which refuses the change. */
  predicate AlertBlocked(ship: Ship, level: AlertState)
  {
    ship.isConstruction || !ship.hasEnoughCrew || (level == Red && CloakOn(ship))
  }

  /**
   * `setAlertStateShip`: the construction, crew and cloak guards in that order,
   * then the entity's alert change (which may fail for lack of energy), a save,
   * the level's cascade and a second save.  It reports success whenever the base
   * change went through, however the cascade fared — unless the Green cascade
   * lets an error escape.
   */
  function SetAlertStateShip(c: Collaborators, ship: Ship, level: AlertState): (r: Run)
    ensures AlertBlocked(ship, level) ==> !r.ok && r.ship == ship && r.saves == [] && r.raised.None? && |r.infos| == 1
    ensures ship.isConstruction ==> r.infos == [ConstructionCannotChangeAlert(ship.id)]
    ensures !ship.isConstruction && !ship.hasEnoughCrew ==> r.infos == [CrewPreventsAlertChange(ship.id)]
    ensures !ship.isConstruction && ship.hasEnoughCrew && level == Red && CloakOn(ship) ==> r.infos == [CloakPreventsRed(ship.id)]
    ensures r.ok <==> !AlertBlocked(ship, level) && c.setAlert(ship, level).Success? && r.raised.None?
    ensures r.ok ==> r.ship.alert == level && r.saves == [ship.id, ship.id]
    ensures r.raised.Some? ==> level == Green && r.saves == [ship.id] && !DeactivationHandled(r.raised.value)
    ensures r.ship.alert != ship.alert ==> r.ship.alert == level && !AlertBlocked(ship, level)
    ensures !AlertBlocked(ship, level) && c.setAlert(ship, level).Failure? ==>
      r.infos == [AlertEnergyShortfall(ship.id, c.setAlert(ship, level).error)] && r.ship == ship && r.saves == []
    ensures ReportsOf(r.infos, ship.id, level != Green)
    ensures r.ship.id == ship.id && r.ship.systems == ship.systems && r.ship.isConstruction == ship.isConstruction
    ensures !AlertBlocked(ship, level) && c.setAlert(ship, level).Success? ==>
      r == ApplyAlert(c, ship, level, c.setAlert(ship, level).value)
  {
    if ship.isConstruction then Run(ship, [ConstructionCannotChangeAlert(ship.id)], [], false, None)
    else if !ship.hasEnoughCrew then Run(ship, [CrewPreventsAlertChange(ship.id)], [], false, None)
    else if level == Red && CloakOn(ship) then Run(ship, [CloakPreventsRed(ship.id)], [], false, None)
    else
      match c.setAlert(ship, level)
      case Failure(needed) => Run(ship, [AlertEnergyShortfall(ship.id, needed)], [], false, None)
      case Success(shift) => ApplyAlert(c, ship, level, shift)
  }

  /** The systems the cascade of `level` names for a ship with `installed` systems. */
  function CascadeSystems(level: AlertState, installed: seq<SystemType>): seq<SystemType>
  {
    match level
    case Red => RedSystems
    case Yellow => YellowSystems
    case Green => Filter(GreenSystems, InstalledIn(installed))
  }

  /**
   * The part of `setAlertStateShip` after the entity accepted the change: the
   * new level and reserve, a save, the remark line if any, the cascade, and a
   * second save unless the cascade let an error escape.
   */
  function ApplyAlert(c: Collaborators, ship: Ship, level: AlertState, shift: AlertShift): (r: Run)
    ensures r.ok <==> r.raised.None?
    ensures r.raised.Some? ==> level == Green && !DeactivationHandled(r.raised.value)
    ensures r.saves == (if r.ok then [ship.id, ship.id] else [ship.id])
    ensures r.ship.alert == level && r.ship.id == ship.id && r.ship.systems == ship.systems
    ensures r.ship.isConstruction == ship.isConstruction
    ensures ReportsOf(r.infos, ship.id, level != Green)
    ensures shift.remark.Some? <==> |r.infos| > 0 && r.infos[0].AlertRemark?
    ensures shift.remark.Some? ==> r.infos[0] == AlertRemark(ship.id, shift.remark.value)
    ensures OnlyReports(r.infos[if shift.remark.Some? then 1 else 0..])
    ensures r.infos
            == (if shift.remark.Some? then [AlertRemark(ship.id, shift.remark.value)] else [])
               + AlertCascade(c, ship.(alert := level, eps := shift.eps), level).infos
    ensures r.ship == AlertCascade(c, ship.(alert := level, eps := shift.eps), level).ship
  {
    var shifted := ship.(alert := level, eps := shift.eps);
    var cascade := AlertCascade(c, shifted, level);
    var infos := WithRemark(ship.id, shift.remark, cascade.infos);
    RemarkKeepsReports(ship.id, shift.remark, cascade.infos, level != Green);
    if cascade.raised.Some? then Run(cascade.ship, infos, [ship.id], false, cascade.raised)
    else Run(cascade.ship, infos, [ship.id, ship.id], true, None)
  }

  /** The entity's remark line, if it gave one, ahead of the cascade's report lines. */
  function WithRemark(id: ShipId, remark: Option<string>, reports: seq<Info>): (r: seq<Info>)
    requires OnlyReports(reports)
    ensures remark.Some? <==> |r| > 0 && r[0].AlertRemark?
    ensures remark.Some? ==> r[0] == AlertRemark(id, remark.value)
    ensures r[if remark.Some? then 1 else 0..] == reports
  {
    if remark.Some? then [AlertRemark(id, remark.value)] + reports else reports
  }

  /** The remark line is no report, so it leaves the cascade's report property intact. */
  lemma RemarkKeepsReports(id: ShipId, remark: Option<string>, reports: seq<Info>, activation: bool)
    requires OnlyReports(reports) && ReportsOf(reports, id, activation)
    ensures ReportsOf(WithRemark(id, remark, reports), id, activation)
  {
    var r := WithRemark(id, remark, reports);
    if remark.Some? {
      assert forall i :: 1 <= i < |r| ==> r[i] == reports[i - 1];
    }
  }

  /** The systems each level's cascade reports, when nothing escapes. */
  lemma AlertCascadeReports(c: Collaborators, ship: Ship, level: AlertState)
    ensures var r := AlertCascade(c, ship, level);
      r.raised.None? ==> ReportedSystems(r.infos) == CascadeSystems(level, ship.systems)
  {
    match level
    case Red =>
    case Yellow =>
    case Green =>
  }

  lemma ApplyAlertSystems(c: Collaborators, ship: Ship, level: AlertState, shift: AlertShift)
    ensures var r := ApplyAlert(c, ship, level, shift);
      r.ok ==> ReportedSystems(r.infos) == CascadeSystems(level, ship.systems)
  {
    var shifted := ship.(alert := level, eps := shift.eps);
    var cascade := AlertCascade(c, shifted, level);
    AlertCascadeReports(c, shifted, level);
    if shift.remark.Some? {
      var line := AlertRemark(ship.id, shift.remark.value);
      assert ReportedSystems([line]) == ReportedBy(line) + ReportedSystems([]);
      ReportedSystemsAppend([line], cascade.infos);
    } else {
      assert [] + cascade.infos == cascade.infos;
    }
  }

  /**
   * A refused alert change — by a guard or for lack of energy — touches no
   * system, leaves the ship as it was and saves nothing.
   */
  lemma AlertRefusalTouchesNothing(c: Collaborators, ship: Ship, level: AlertState)
    ensures var r := SetAlertStateShip(c, ship, level);
      !r.ok && r.raised.None? ==> ReportedSystems(r.infos) == [] && r.ship == ship && r.saves == []
  {
    var r := SetAlertStateShip(c, ship, level);
    if AlertBlocked(ship, level) || c.setAlert(ship, level).Failure? {
      assert ReportedSystems(r.infos) == ReportedBy(r.infos[0]) + ReportedSystems(r.infos[1..]);
    }
  }

  /**
   * Which systems a successful alert change touches: shields, sensors, phaser
   * and torpedo for Red, the sensors for Yellow, and for Green phaser, torpedo
   * and shields as far as installed — each once, in that order, as activation
   * reports for Red and Yellow and as deactivation reports for Green.
   */
  lemma AlertCascadeSystems(c: Collaborators, ship: Ship, level: AlertState)
    ensures var r := SetAlertStateShip(c, ship, level);
      r.ok ==> ReportedSystems(r.infos) == CascadeSystems(level, ship.systems) && ReportsOf(r.infos, ship.id, level != Green)
  {
    if !AlertBlocked(ship, level) && c.setAlert(ship, level).Success? {
      ApplyAlertSystems(c, ship, level, c.setAlert(ship, level).value);
    }
  }

  /** The manager keeps its word on deactivation: a success switches the system off and nothing on. */
  ghost predicate DeactivationSound(c: Collaborators)
  {
    forall s: Ship, t: SystemType :: c.deactivate(s, t).Success? ==> c.deactivate(s, t).value.active <= s.active - {t}
  }

  /** The manager never refuses to switch `t` off: it either does so or reports it already off. */
  ghost predicate NeverRefuses(c: Collaborators, t: SystemType)
  {
    forall s: Ship :: c.deactivate(s, t).Success? || (c.deactivate(s, t) == Failure(AlreadyOff) && t !in s.active)
  }

  lemma {:induction false} DeactivateInstalledClears(c: Collaborators, ship: Ship, systems: seq<SystemType>)
    requires DeactivationSound(c)
    requires forall t :: t in systems ==> NeverRefuses(c, t)
    ensures var r := DeactivateInstalled(c, ship, systems);
      && r.raised.None?
      && r.ship.active <= ship.active
      && forall t :: t in systems && HasSystem(ship, t) ==> t !in r.ship.active
    decreases |systems|
  {
    if systems != [] {
      var t := systems[0];
      if !HasSystem(ship, t) {
        DeactivateInstalledClears(c, ship, systems[1..]);
      } else {
        assert NeverRefuses(c, t);
        var a := DeactivateIntern(c, ship, t).value;
        assert t !in a.ship.active && a.ship.active <= ship.active;
        DeactivateInstalledClears(c, a.ship, systems[1..]);
      }
    }
  }

  /** The manager keeps its word on activation: a success switches the system on and nothing off. */
  ghost predicate ActivationSound(c: Collaborators)
  {
    forall s: Ship, t: SystemType :: c.activate(s, t).Success? ==> s.active + {t} <= c.activate(s, t).value.active
  }

  /** The manager never refuses to switch `t` on: it either does so or reports it already on. */
  ghost predicate AlwaysActivates(c: Collaborators, t: SystemType)
  {
    forall s: Ship :: c.activate(s, t).Success? || (c.activate(s, t) == Failure(AlreadyActive) && t in s.active)
  }

  lemma {:induction false} ActivateEachArms(c: Collaborators, ship: Ship, systems: seq<SystemType>)
    requires ActivationSound(c)
    requires forall t :: t in systems ==> AlwaysActivates(c, t)
    ensures var r := ActivateEach(c, ship, systems);
      && ship.active <= r.ship.active
      && forall t :: t in systems ==> t in r.ship.active
    decreases |systems|
  {
    if systems != [] {
      var t := systems[0];
      assert AlwaysActivates(c, t);
      var a := ActivateIntern(c, ship, t);
      assert t in a.ship.active && ship.active <= a.ship.active;
      ActivateEachArms(c, a.ship, systems[1..]);
    }
  }

  /**
   * Entering Red or Yellow leaves every system of that level's list running
   * (shields, sensors, phaser and torpedo; the sensors), and switches nothing
   * off, provided the manager switches them on when asked.
   */
  lemma AlertArms(c: Collaborators, ship: Ship, level: AlertState)
    requires level != Green
    requires ActivationSound(c)
    requires forall t :: t in CascadeSystems(level, ship.systems) ==> AlwaysActivates(c, t)
    ensures var r := SetAlertStateShip(c, ship, level);
      r.ok ==> ship.active <= r.ship.active && forall t :: t in CascadeSystems(level, ship.systems) ==> t in r.ship.active
  {
    if !AlertBlocked(ship, level) && c.setAlert(ship, level).Success? {
      var shift := c.setAlert(ship, level).value;
      var shifted := ship.(alert := level, eps := shift.eps);
      ActivateEachArms(c, shifted, CascadeSystems(level, ship.systems));
    }
  }

  /**
   * Entering Green leaves none of phaser, torpedo and shields running that the
   * ship had installed, provided the manager switches them off when asked, and
   * switches nothing else on.
   */
  lemma GreenDisarms(c: Collaborators, ship: Ship)
    requires DeactivationSound(c)
    requires forall t :: t in GreenSystems ==> NeverRefuses(c, t)
    ensures var r := SetAlertStateShip(c, ship, Green);
      && r.raised.None?
      && (r.ok ==> forall t :: t in GreenSystems && HasSystem(ship, t) ==> t !in r.ship.active)
  {
    if !AlertBlocked(ship, Green) && c.setAlert(ship, Green).Success? {
      var shift := c.setAlert(ship, Green).value;
      var shifted := ship.(alert := Green, eps := shift.eps);
      DeactivateInstalledClears(c, shifted, GreenSystems);
    }
  }

  /** `setAlertState`: the new level is announced only when the change took effect. */
  function SetAlertState(c: Collaborators, ship: Ship, level: AlertState): (r: Run)
    ensures var inner := SetAlertStateShip(c, ship, level);
      && Extends(inner.infos, r.infos)
      && (r.ok <==> inner.ok)
      && (r.ok ==> r.infos == inner.infos + [AlertChanged(level)])
      && (!r.ok ==> r.infos == inner.infos)
      && r.ship == inner.ship && r.saves == inner.saves && r.raised == inner.raised
  {
    var run := SetAlertStateShip(c, ship, level);
    if run.ok then run.(infos := run.infos + [AlertChanged(level)]) else run
  }

  // ----------------------------------------------------------------- fleets

  /** The per-ship runs of a fleet command, the summary line, and whether an error escaped. */
  datatype FleetRun = FleetRun(runs: seq<Run>, infos: seq<Info>, saves: seq<ShipId>, ok: bool, raised: Option<SystemError>)

  /** The lines of `runs`, concatenated in order. */
  function AllInfos(runs: seq<Run>): seq<Info>
  {
    if runs == [] then [] else AllInfos(runs[..|runs| - 1]) + runs[|runs| - 1].infos
  }

  /** The saves of `runs`, concatenated in order. */
  function AllSaves(runs: seq<Run>): seq<ShipId>
  {
    if runs == [] then [] else AllSaves(runs[..|runs| - 1]) + runs[|runs| - 1].saves
  }

  /**
   * The fleet loop shared by the three fleet commands: every ship is tried in
   * turn whatever the earlier ones did, until an error escapes; the summary line
   * is added only when at least one ship succeeded and nothing escaped.
   */
  method RunFleet(fleet: seq<Ship>, step: Ship -> Run, summary: Info) returns (r: FleetRun)
    ensures |r.runs| <= |fleet|
    ensures forall j :: 0 <= j < |r.runs| ==> r.runs[j] == step(fleet[j])
    ensures forall j :: 0 <= j < |r.runs| - 1 ==> r.runs[j].raised.None?
    ensures r.raised.None? <==> |r.runs| == |fleet| && forall j :: 0 <= j < |fleet| ==> step(fleet[j]).raised.None?
    ensures r.raised.Some? ==> |r.runs| > 0 && r.raised == r.runs[|r.runs| - 1].raised
    ensures r.ok <==> r.raised.None? && exists j :: 0 <= j < |fleet| && step(fleet[j]).ok
    ensures r.infos == AllInfos(r.runs) + (if r.ok then [summary] else [])
    ensures r.saves == AllSaves(r.runs)
  {
    var runs: seq<Run> := [];
    var success := false;
    var i := 0;
    while i < |fleet|
      invariant 0 <= i <= |fleet| && |runs| == i
      invariant forall j :: 0 <= j < i ==> runs[j] == step(fleet[j])
      invariant forall j :: 0 <= j < i ==> runs[j].raised.None?
      invariant success <==> exists j :: 0 <= j < i && step(fleet[j]).ok
    {
      var run := step(fleet[i]);
      runs := runs + [run];
      if run.raised.Some? {
        assert runs[i] == step(fleet[i]) && !step(fleet[i]).raised.None?;
        return FleetRun(runs, AllInfos(runs), AllSaves(runs), false, run.raised);
      }
      success := run.ok || success;
      i := i + 1;
    }
    assert i == |fleet|;
    r := FleetRun(runs, AllInfos(runs) + (if success then [summary] else []), AllSaves(runs), success, None);
  }

  /** One ship's part in `activateFleet`: an intern attempt, the ship saved only when it succeeded. */
  function FleetActivateRun(c: Collaborators, system: SystemType, s: Ship): (r: Run)
    ensures r.raised.None?
    ensures r.ok <==> c.activate(s, system).Success?
    ensures r.ship == ActivateIntern(c, s, system).ship && r.infos == [ActivateIntern(c, s, system).info]
    ensures r.saves == (if r.ok then [s.id] else [])
  {
    var a := ActivateIntern(c, s, system);
    Run(a.ship, [a.info], if a.ok then [s.id] else [], a.ok, None)
  }

  /**
   * One ship's part in `deactivateFleet`: unlike the single-ship `deactivate`,
   * the ship is saved only when the system went off.
   */
  function FleetDeactivateRun(c: Collaborators, system: SystemType, s: Ship): (r: Run)
    ensures r.raised.Some? <==> DeactivateIntern(c, s, system).Failure?
    ensures r.ok <==> c.deactivate(s, system).Success?
    ensures r.saves == (if r.ok then [s.id] else [])
    ensures r.raised.Some? ==> r.ship == s && r.infos == []
    ensures r.raised.None? ==>
      r.ship == DeactivateIntern(c, s, system).value.ship && r.infos == [DeactivateIntern(c, s, system).value.info]
  {
    match DeactivateIntern(c, s, system)
    case Success(a) => Run(a.ship, [a.info], if a.ok then [s.id] else [], a.ok, None)
    case Failure(e) => Run(s, [], [], false, Some(e))
  }


  /**
   * `activateFleet`: every ship gets an attempt; exactly the ships whose system
   * came on are saved; the summary follows only if at least one did.
   */
  method ActivateFleet(c: Collaborators, fleet: seq<Ship>, system: SystemType) returns (r: FleetRun)
    ensures |r.runs| == |fleet| && r.raised.None?
    ensures forall j :: 0 <= j < |fleet| ==> r.runs[j] == FleetActivateRun(c, system, fleet[j])
    ensures forall j :: 0 <= j < |fleet| ==> r.runs[j].infos == [ActivateIntern(c, fleet[j], system).info]
    ensures forall j :: 0 <= j < |fleet| ==> r.runs[j].ship == ActivateIntern(c, fleet[j], system).ship
    ensures forall j :: 0 <= j < |fleet| ==> (r.runs[j].ok <==> c.activate(fleet[j], system).Success?)
    ensures forall j :: 0 <= j < |fleet| ==> r.runs[j].saves == (if r.runs[j].ok then [fleet[j].id] else [])
    ensures r.saves == AllSaves(r.runs)
    ensures r.ok <==> exists j :: 0 <= j < |fleet| && c.activate(fleet[j], system).Success?
    ensures r.infos == AllInfos(r.runs) + (if r.ok then [FleetActivated(system)] else [])
  {
    var step := s => FleetActivateRun(c, system, s);
    r := RunFleet(fleet, step, FleetActivated(system));
    assert r.ok <==> exists j :: 0 <= j < |fleet| && step(fleet[j]).ok;
  }

  /**
   * `deactivateFleet`: every ship gets an attempt until an error the helper does
   * not absorb escapes; exactly the ships whose system went off are saved.
   */
  method DeactivateFleet(c: Collaborators, fleet: seq<Ship>, system: SystemType) returns (r: FleetRun)
    ensures |r.runs| <= |fleet|
    ensures forall j :: 0 <= j < |r.runs| ==> r.runs[j] == FleetDeactivateRun(c, system, fleet[j])
    ensures forall j :: 0 <= j < |r.runs| ==> (r.runs[j].ok <==> c.deactivate(fleet[j], system).Success?)
    ensures forall j :: 0 <= j < |r.runs| ==> r.runs[j].saves == (if r.runs[j].ok then [fleet[j].id] else [])
    ensures forall j :: 0 <= j < |r.runs| && DeactivateIntern(c, fleet[j], system).Success? ==>
      r.runs[j].ship == DeactivateIntern(c, fleet[j], system).value.ship
      && r.runs[j].infos == [DeactivateIntern(c, fleet[j], system).value.info]
    ensures r.raised.None? <==> |r.runs| == |fleet| && forall j :: 0 <= j < |fleet| ==> DeactivateIntern(c, fleet[j], system).Success?
    ensures r.ok <==> r.raised.None? && exists j :: 0 <= j < |fleet| && c.deactivate(fleet[j], system).Success?
    ensures r.infos == AllInfos(r.runs) + (if r.ok then [FleetDeactivated(system)] else [])
    ensures r.saves == AllSaves(r.runs)
  {
    var step := s => FleetDeactivateRun(c, system, s);
    r := RunFleet(fleet, step, FleetDeactivated(system));
  }

  /**
   * `setAlertStateFleet`: the call is made for every ship before its result is
   * or-ed into the flag, so a success never skips the ships after it.
   */
  method SetAlertStateFleet(c: Collaborators, fleet: seq<Ship>, level: AlertState) returns (r: FleetRun)
    ensures |r.runs| <= |fleet|
    ensures forall j :: 0 <= j < |r.runs| ==> r.runs[j] == SetAlertStateShip(c, fleet[j], level)
    ensures r.raised.None? <==> |r.runs| == |fleet| && forall j :: 0 <= j < |fleet| ==> SetAlertStateShip(c, fleet[j], level).raised.None?
    ensures r.ok <==> r.raised.None? && exists j :: 0 <= j < |fleet| && SetAlertStateShip(c, fleet[j], level).ok
    ensures r.infos == AllInfos(r.runs) + (if r.ok then [FleetAlertChanged(level)] else [])
    ensures r.saves == AllSaves(r.runs)
  {
    var step := s => SetAlertStateShip(c, s, level);
    r := RunFleet(fleet, step, FleetAlertChanged(level));
  }
}

=== FILE: attack_cycle.dfy ===
/**
 * The combat cycle controller: readiness, turn selection between an attacker
 * group and a defender group, the two weapon phases per turn, and the final
 * saves.  Ships live in a `Roster` (ship id to ship state) that the weapon
 * phases and readiness step return updated; the cycle itself only reads ships.
 */
module AttackCycle {
  import opened Results
  import opened Seqs
  import opened Ships

  /** One battle-log line produced by a collaborator; its text is not interpreted here. */
  type Msg = string

  /** The current state of every ship, by id. */
  type Roster = ShipId -> Ship

  /** What a collaborator call returns: the ships after it ran and its log lines. */
  datatype Salvo = Salvo(roster: Roster, messages: seq<Msg>)

  /**
   * The collaborators of the cycle: the readiness step, the energy-weapon and
   * projectile-weapon phases (acting ship, target pool, alert-red flag) and the
   * liveness test behind filterInactiveShips.
   */
  datatype Weapons = Weapons(
    ready: (Roster, ShipId) -> Salvo,
    energy: (Roster, ShipId, seq<ShipId>, bool) -> Salvo,
    projectile: (Roster, ShipId, seq<ShipId>, bool) -> Salvo,
    live: Ship -> bool)

  /**
   * The random source, indexed by turn number: `pick` stands for array_rand
   * (reduced modulo the number of candidates) and `roll` for rand(1, 2).
   */
  datatype Dice = Dice(pick: nat -> nat, roll: nat -> nat)

  /** The value rand(1, 2) returns on turn `n`. */
  function Coin(dice: Dice, n: nat): (c: int)
    ensures c == 1 || c == 2
  {
    dice.roll(n) % 2 + 1
  }

  datatype Side = Attacker | Defender
  {
    function Opponent(): Side
    {
      if this == Attacker then Defender else Attacker
    }
  }

  /** The fields of one cycle object: groups, mode, first-strike flag, log and used-ship sets. */
  datatype CycleState = CycleState(
    attacker: seq<ShipId>,
    defender: seq<ShipId>,
    oneWay: bool,
    firstStrike: bool,
    messages: seq<Msg>,
    usedAttacker: set<ShipId>,
    usedDefender: set<ShipId>)
  {
    function Group(side: Side): seq<ShipId>
    {
      if side == Attacker then attacker else defender
    }

    function Used(side: Side): set<ShipId>
    {
      if side == Attacker then usedAttacker else usedDefender
    }

    /** Records `id` as used on `side`; nothing else changes. */
    function MarkUsed(side: Side, id: ShipId): (st: CycleState)
      ensures st.Used(side) == Used(side) + {id}
      ensures st.Used(side.Opponent()) == Used(side.Opponent())
      ensures st.(usedAttacker := usedAttacker, usedDefender := usedDefender) == this
    {
      if side == Attacker then this.(usedAttacker := usedAttacker + {id})
      else this.(usedDefender := usedDefender + {id})
    }

    /** Appends collaborator messages to the log; the old log is kept as a prefix. */
    function AddMessageMerge(msgs: seq<Msg>): (st: CycleState)
      ensures Extends(messages, st.messages)
      ensures st.messages[|messages|..] == msgs
      ensures st == this.(messages := st.messages)
    {
      this.(messages := messages + msgs)
    }
  }

  /** A cycle object right after `init`. */
  function Init(attacker: seq<ShipId>, defender: seq<ShipId>, oneWay: bool): (st: CycleState)
    ensures st.attacker == attacker && st.defender == defender && st.oneWay == oneWay
    ensures st.firstStrike && st.messages == []
    ensures st.usedAttacker == {} && st.usedDefender == {}
    ensures Fresh(st) && UsedWithin(st)
    ensures Unused(st) <= |attacker| + |defender|
  {
    ElementsBound(attacker);
    ElementsBound(defender);
    CycleState(attacker, defender, oneWay, true, [], {}, {})
  }

  /** Used ships are always ships of their own group. */
  ghost predicate UsedWithin(st: CycleState)
  {
    st.usedAttacker <= Elements(st.attacker) && st.usedDefender <= Elements(st.defender)
  }

  /** Nobody has acted yet while the first strike is pending. */
  ghost predicate Fresh(st: CycleState)
  {
    st.firstStrike ==> st.usedAttacker == {}
  }

  /** The number of distinct ship ids that have not acted yet: the loop's measure. */
  function Unused(st: CycleState): nat
  {
    |Elements(st.attacker) - st.usedAttacker| + |Elements(st.defender) - st.usedDefender|
  }

  /** filterInactiveShips: the ships of `ids` that are still able to take part, in order. */
  function FilterInactive(w: Weapons, roster: Roster, ids: seq<ShipId>): (r: seq<ShipId>)
    ensures forall id :: id in r <==> id in ids && w.live(roster(id))
  {
    Filter(ids, id => w.live(roster(id)))
  }

  /** The ready filter applied to one side's live pool (the array_filter closures). */
  function ReadyOf(st: CycleState, roster: Roster, side: Side, pool: seq<ShipId>): seq<ShipId>
  {
    Filter(pool, id => !(side == Defender && st.oneWay) && id !in st.Used(side) && CanFire(roster(id)))
  }

  /** Independent statement of "ready": live, unused, able to fire, and not a one-way defender. */
  ghost predicate Eligible(st: CycleState, w: Weapons, roster: Roster, side: Side, id: ShipId)
  {
    && id in st.Group(side)
    && w.live(roster(id))
    && id !in st.Used(side)
    && CanFire(roster(id))
    && !(side == Defender && st.oneWay)
  }

  ghost predicate HasEligible(st: CycleState, w: Weapons, roster: Roster, side: Side)
  {
    exists id :: Eligible(st, w, roster, side, id)
  }

  ghost predicate HasLive(st: CycleState, w: Weapons, roster: Roster, side: Side)
  {
    exists id :: id in st.Group(side) && w.live(roster(id))
  }

  /** Both used sets have reached the sizes of their groups. */
  predicate Exhausted(st: CycleState)
  {
    |st.usedAttacker| >= |st.attacker| && |st.usedDefender| >= |st.defender|
  }

  /** When the loop stops instead of playing another turn. */
  ghost predicate Halts(st: CycleState, w: Weapons, roster: Roster)
  {
    || Exhausted(st)
    || !HasLive(st, w, roster, Attacker)
    || !HasLive(st, w, roster, Defender)
    || (!st.firstStrike
        && !HasEligible(st, w, roster, Attacker)
        && !HasEligible(st, w, roster, Defender))
  }

  lemma PoolEmptyIffNoneLive(st: CycleState, w: Weapons, roster: Roster, side: Side)
    ensures FilterInactive(w, roster, st.Group(side)) == [] <==> !HasLive(st, w, roster, side)
  {
    var pool := FilterInactive(w, roster, st.Group(side));
    if pool != [] {
      var id := pool[0];
      assert id in pool;
      assert id in st.Group(side) && w.live(roster(id));
    } else {
      assert forall id :: id in st.Group(side) ==> id !in pool;
    }
  }

  lemma ReadyIffEligible(st: CycleState, w: Weapons, roster: Roster, side: Side)
    ensures forall id :: id in ReadyOf(st, roster, side, FilterInactive(w, roster, st.Group(side)))
                         <==> Eligible(st, w, roster, side, id)
    ensures ReadyOf(st, roster, side, FilterInactive(w, roster, st.Group(side))) == []
            <==> !HasEligible(st, w, roster, side)
  {
    var ready := ReadyOf(st, roster, side, FilterInactive(w, roster, st.Group(side)));
    if ready != [] {
      var id := ready[0];
      assert id in ready;
      assert Eligible(st, w, roster, side, id);
    } else {
      assert forall id :: id in st.Group(side) ==> id !in ready;
    }
  }

  /** The acting ship and target pool of one turn, and the state with the actor marked used. */
  datatype Fixture = Fixture(actor: ShipId, targets: seq<ShipId>, state: CycleState)

  /**
   * getFixture: picks the acting ship among `candidates` and marks it used on
   * `side`.  `None` is the process-ending die() on an empty candidate list.
   */
  function GetFixture(st: CycleState, side: Side, candidates: seq<ShipId>, targets: seq<ShipId>, pick: nat)
    : (r: Option<Fixture>)
    ensures r.None? <==> candidates == []
    ensures r.Some? ==> r.value.actor in candidates && r.value.targets == targets
    ensures r.Some? ==> r.value.state == st.MarkUsed(side, r.value.actor)
  {
    if candidates == [] then None
    else
      var actor := candidates[pick % |candidates|];
      Some(Fixture(actor, targets, st.MarkUsed(side, actor)))
  }

  /**
   * What one turn did: who acted for which side, at which targets in each
   * phase, and the lines each phase merged into the log.
   */
  datatype Turn = Turn(
    side: Side,
    actor: ShipId,
    energyTargets: seq<ShipId>,
    projectileTargets: seq<ShipId>,
    energyLines: seq<Msg>,
    projectileLines: seq<Msg>)
  {
    /** The lines the turn appended to the log: the energy phase's, then the projectile phase's. */
    function Lines(): seq<Msg>
    {
      energyLines + projectileLines
    }
  }

  /** The lines a sequence of turns appended to the log, turn by turn. */
  function LinesOf(turns: seq<Turn>): seq<Msg>
  {
    if turns == [] then [] else turns[0].Lines() + LinesOf(turns[1..])
  }

  datatype Move = Halt | Died | Fired(turn: Turn, state: CycleState, roster: Roster)

  /** The energy phase at the target pool, then the projectile phase at its still-live part. */
  function Fire(w: Weapons, roster: Roster, side: Side, fx: Fixture, isAlertRed: bool): (r: Move)
    ensures r.Fired? && r.turn.side == side && r.turn.actor == fx.actor
    ensures r.turn.energyTargets == fx.targets
    ensures r.turn.projectileTargets
            == FilterInactive(w, w.energy(roster, fx.actor, fx.targets, isAlertRed).roster, fx.targets)
    ensures forall x :: x in r.turn.projectileTargets ==> x in r.turn.energyTargets
    ensures r.state == fx.state.(messages := r.state.messages)
    ensures r.turn.energyLines == w.energy(roster, fx.actor, fx.targets, isAlertRed).messages
    ensures r.turn.projectileLines
            == w.projectile(w.energy(roster, fx.actor, fx.targets, isAlertRed).roster,
                            fx.actor, r.turn.projectileTargets, isAlertRed).messages
    ensures forall id ::
              r.roster(id)
              == w.projectile(w.energy(roster, fx.actor, fx.targets, isAlertRed).roster,
                              fx.actor, r.turn.projectileTargets, isAlertRed).roster(id)
    ensures r.state.messages == fx.state.messages + r.turn.Lines()
  {
    var energy := w.energy(roster, fx.actor, fx.targets, isAlertRed);
    var survivors := FilterInactive(w, energy.roster, fx.targets);
    var projectile := w.projectile(energy.roster, fx.actor, survivors, isAlertRed);
    Fired(Turn(side, fx.actor, fx.targets, survivors, energy.messages, projectile.messages),
          fx.state.AddMessageMerge(energy.messages).AddMessageMerge(projectile.messages),
          projectile.roster)
  }

  function Resolve(w: Weapons, roster: Roster, side: Side, fx: Option<Fixture>, isAlertRed: bool): (r: Move)
    ensures fx.None? <==> r.Died?
    ensures fx.Some? ==> r.Fired? && r.turn.side == side && r.turn.actor == fx.value.actor
    ensures fx.Some? ==> r.state == fx.value.state.(messages := r.state.messages)
    ensures fx.Some? ==> r.state.messages == fx.value.state.messages + r.turn.Lines()
  {
    match fx
    case None => Died
    case Some(f) => Fire(w, roster, side, f, isAlertRed)
  }

  /**
   * One iteration of the cycle's while loop, turn number `n`: it stops, or one
   * ship that has not acted yet on its side acts and is marked used.
   */
  function Step(st: CycleState, w: Weapons, roster: Roster, dice: Dice, n: nat, isAlertRed: bool): (r: Move)
    ensures !r.Died?
    ensures r.Fired? ==> r.turn.actor in st.Group(r.turn.side)
    ensures r.Fired? ==> st.firstStrike || r.turn.actor !in st.Used(r.turn.side)
    ensures r.Fired? && st.firstStrike ==> r.turn.side == Attacker
    ensures r.Fired? ==>
              && !r.state.firstStrike
              && r.state.attacker == st.attacker
              && r.state.defender == st.defender
              && r.state.oneWay == st.oneWay
              && r.state.Used(r.turn.side) == st.Used(r.turn.side) + {r.turn.actor}
              && r.state.Used(r.turn.side.Opponent()) == st.Used(r.turn.side.Opponent())
    ensures r.Fired? ==> r.state.messages == st.messages + r.turn.Lines()
  {
    if Exhausted(st) then Halt
    else
      var attackerPool := FilterInactive(w, roster, st.attacker);
      var defenderPool := FilterInactive(w, roster, st.defender);
      if attackerPool == [] || defenderPool == [] then Halt
      else if st.firstStrike then
        Resolve(w, roster, Attacker,
                GetFixture(st.(firstStrike := false), Attacker, attackerPool, defenderPool, dice.pick(n)),
                isAlertRed)
      else
        var readyAttacker := ReadyOf(st, roster, Attacker, attackerPool);
        var readyDefender := ReadyOf(st, roster, Defender, defenderPool);
        if readyAttacker == [] && readyDefender == [] then Halt
        else if readyAttacker == [] then
          Resolve(w, roster, Defender, GetFixture(st, Defender, readyDefender, attackerPool, dice.pick(n)), isAlertRed)
        else if readyDefender == [] || Coin(dice, n) == 1 || st.oneWay then
          Resolve(w, roster, Attacker, GetFixture(st, Attacker, readyAttacker, defenderPool, dice.pick(n)), isAlertRed)
        else
          Resolve(w, roster, Defender, GetFixture(st, Defender, readyDefender, attackerPool, dice.pick(n)), isAlertRed)
  }

  /**
   * The loop stops exactly when both used sets are full, when a side has no
   * live ship left, or, after the first strike, when neither side has a ready ship.
   */
  lemma StepHalts(st: CycleState, w: Weapons, roster: Roster, dice: Dice, n: nat, isAlertRed: bool)
    ensures Step(st, w, roster, dice, n, isAlertRed).Halt? <==> Halts(st, w, roster)
  {
    PoolEmptyIffNoneLive(st, w, roster, Attacker);
    PoolEmptyIffNoneLive(st, w, roster, Defender);
    ReadyIffEligible(st, w, roster, Attacker);
    ReadyIffEligible(st, w, roster, Defender);
  }

  /**
   * Who acts on a played turn.  The first strike goes to a live attacker with
   * no readiness test; later turns go to a ready ship, and the defender side acts
   * exactly when it has a ready ship and either the attacker side has none or
   * the coin shows 2.
   */
  lemma StepSelection(st: CycleState, w: Weapons, roster: Roster, dice: Dice, n: nat, isAlertRed: bool)
    requires Step(st, w, roster, dice, n, isAlertRed).Fired?
    ensures var t := Step(st, w, roster, dice, n, isAlertRed).turn;
      && (st.firstStrike ==> t.side == Attacker && t.actor in st.attacker && w.live(roster(t.actor)))
      && (!st.firstStrike ==> Eligible(st, w, roster, t.side, t.actor))
      && (!st.firstStrike ==>
            (t.side == Defender
             <==> HasEligible(st, w, roster, Defender)
                  && (!HasEligible(st, w, roster, Attacker) || Coin(dice, n) == 2)))
  {
    ReadyIffEligible(st, w, roster, Attacker);
    ReadyIffEligible(st, w, roster, Defender);
  }

  /**
   * What the two phases of a played turn aim at: the energy phase at the whole
   * live opposing pool, the projectile phase at the part of that pool still
   * live afterwards.
   */
  lemma StepPhases(st: CycleState, w: Weapons, roster: Roster, dice: Dice, n: nat, isAlertRed: bool)
    requires Step(st, w, roster, dice, n, isAlertRed).Fired?
    ensures var r := Step(st, w, roster, dice, n, isAlertRed);
      var energy := w.energy(roster, r.turn.actor, r.turn.energyTargets, isAlertRed);
      && r.turn.energyTargets == FilterInactive(w, roster, st.Group(r.turn.side.Opponent()))
      && r.turn.projectileTargets == FilterInactive(w, energy.roster, r.turn.energyTargets)
  {
  }

  /**
   * What a played turn leaves: the lines of its two phases, appended to the log
   * in that order, and the ships as the projectile phase left them.
   */
  lemma StepOutcome(st: CycleState, w: Weapons, roster: Roster, dice: Dice, n: nat, isAlertRed: bool)
    requires Step(st, w, roster, dice, n, isAlertRed).Fired?
    ensures var r := Step(st, w, roster, dice, n, isAlertRed);
      var energy := w.energy(roster, r.turn.actor, r.turn.energyTargets, isAlertRed);
      var projectile := w.projectile(energy.roster, r.turn.actor, r.turn.projectileTargets, isAlertRed);
      && r.turn.energyLines == energy.messages
      && r.turn.projectileLines == projectile.messages
      && r.state.messages == st.messages + energy.messages + projectile.messages
      && (forall id :: r.roster(id) == projectile.roster(id))
  {
  }

  /** Every turn's acting ship had not acted before on its side, given the used sets at the start. */
  ghost predicate FreshActors(turns: seq<Turn>, usedAttacker: set<ShipId>, usedDefender: set<ShipId>)
    decreases |turns|
  {
    turns == [] ||
    (var t := turns[0];
     if t.side == Attacker then
       t.actor !in usedAttacker && FreshActors(turns[1..], usedAttacker + {t.actor}, usedDefender)
     else
       t.actor !in usedDefender && FreshActors(turns[1..], usedAttacker, usedDefender + {t.actor}))
  }

  lemma MarkShrinks(group: set<ShipId>, used: set<ShipId>, id: ShipId)
    requires id in group
    ensures |group - (used + {id})| <= |group - used|
    ensures id !in used ==> |group - (used + {id})| < |group - used|
  {
    if id in used {
      assert used + {id} == used;
    } else {
      assert group - used == (group - (used + {id})) + {id};
    }
  }

  /**
   * A played turn never increases the measure, and decreases it whenever the
   * acting ship was unused on its side (always, after the first strike or from
   * a fresh state).
   */
  lemma StepShrinks(st: CycleState, w: Weapons, roster: Roster, dice: Dice, n: nat, isAlertRed: bool)
    requires Step(st, w, roster, dice, n, isAlertRed).Fired?
    ensures Unused(Step(st, w, roster, dice, n, isAlertRed).state) <= Unused(st)
    ensures !st.firstStrike || Fresh(st) ==> Unused(Step(st, w, roster, dice, n, isAlertRed).state) < Unused(st)
    ensures var t := Step(st, w, roster, dice, n, isAlertRed).turn;
      t.actor !in st.Used(t.side) ==> Unused(Step(st, w, roster, dice, n, isAlertRed).state) < Unused(st)
  {
    var r := Step(st, w, roster, dice, n, isAlertRed);
    var t := r.turn;
    if t.side == Attacker {
      MarkShrinks(Elements(st.attacker), st.usedAttacker, t.actor);
    } else {
      MarkShrinks(Elements(st.defender), st.usedDefender, t.actor);
    }
  }

  /** No two turns of one side have the same acting ship, and none was used before. */
  lemma {:induction false} FreshActorsDistinct(turns: seq<Turn>, usedAttacker: set<ShipId>, usedDefender: set<ShipId>)
    requires FreshActors(turns, usedAttacker, usedDefender)
    ensures forall i :: 0 <= i < |turns| && turns[i].side == Attacker ==> turns[i].actor !in usedAttacker
    ensures forall i :: 0 <= i < |turns| && turns[i].side == Defender ==> turns[i].actor !in usedDefender
    ensures forall i, j :: 0 <= i < j < |turns| && turns[i].side == turns[j].side ==> turns[i].actor != turns[j].actor
    decreases |turns|
  {
    if turns != [] {
      var t := turns[0];
      var rest := turns[1..];
      if t.side == Attacker {
        FreshActorsDistinct(rest, usedAttacker + {t.actor}, usedDefender);
      } else {
        FreshActorsDistinct(rest, usedAttacker, usedDefender + {t.actor});
      }
      forall i, j | 0 <= i < j < |turns| && turns[i].side == turns[j].side
        ensures turns[i].actor != turns[j].actor
      {
        assert turns[j] == rest[j - 1];
        if i > 0 {
          assert turns[i] == rest[i - 1];
        }
      }
    }
  }

  /** Every acting ship belongs to the group of the side it acted for. */
  ghost predicate ActorsFromOwnGroup(turns: seq<Turn>, attacker: seq<ShipId>, defender: seq<ShipId>)
    decreases |turns|
  {
    turns == [] ||
    (&& turns[0].actor in (if turns[0].side == Attacker then attacker else defender)
     && ActorsFromOwnGroup(turns[1..], attacker, defender))
  }

  /**
   * Every energy target belongs to the group opposing the acting side, and
   * every projectile target is also an energy target of the same turn.
   */
  ghost predicate TargetsNarrow(turns: seq<Turn>, attacker: seq<ShipId>, defender: seq<ShipId>)
    decreases |turns|
  {
    turns == [] ||
    (&& (forall x :: x in turns[0].energyTargets ==>
           x in (if turns[0].side == Attacker then defender else attacker))
     && (forall x :: x in turns[0].projectileTargets ==> x in turns[0].energyTargets)
     && TargetsNarrow(turns[1..], attacker, defender))
  }

  ghost predicate AttackersOnly(turns: seq<Turn>)
    decreases |turns|
  {
    turns == [] || (turns[0].side == Attacker && AttackersOnly(turns[1..]))
  }

  datatype Battle = Aborted | Fought(state: CycleState, roster: Roster, turns: seq<Turn>)

  /** The cycle's while loop from turn `n` on; it ends when the measure cannot shrink any more. */
  function Loop(st: CycleState, w: Weapons, roster: Roster, dice: Dice, n: nat, isAlertRed: bool): (r: Battle)
    decreases Unused(st), if st.firstStrike then 1 else 0
    ensures r.Fought?
    ensures r.state.attacker == st.attacker && r.state.defender == st.defender && r.state.oneWay == st.oneWay
    ensures Extends(st.messages, r.state.messages)
  {
    match Step(st, w, roster, dice, n, isAlertRed)
    case Halt => Fought(st, roster, [])
    case Died => Aborted
    case Fired(turn, next, after) =>
      StepShrinks(st, w, roster, dice, n, isAlertRed);
      var rest := Loop(next, w, after, dice, n + 1, isAlertRed);
      assert Extends(st.messages, next.messages);
      ExtendsTransitive(st.messages, next.messages, rest.state.messages);
      Fought(rest.state, rest.roster, [turn] + rest.turns)
  }

  /** Used ships stay within their own group for the whole loop. */
  lemma {:induction false} LoopKeepsUsedWithin(
    st: CycleState, w: Weapons, roster: Roster, dice: Dice, n: nat, isAlertRed: bool)
    requires UsedWithin(st)
    ensures UsedWithin(Loop(st, w, roster, dice, n, isAlertRed).state)
    decreases Unused(st), if st.firstStrike then 1 else 0
  {
    var r := Step(st, w, roster, dice, n, isAlertRed);
    if r.Fired? {
      StepShrinks(st, w, roster, dice, n, isAlertRed);
      assert r.turn.actor in Elements(st.Group(r.turn.side));
      assert UsedWithin(r.state);
      LoopKeepsUsedWithin(r.state, w, r.roster, dice, n + 1, isAlertRed);
    }
  }

  /**
   * The loop plays at most one turn per distinct ship id not yet used, plus
   * one if a used ship could take the pending first strike.
   */
  lemma {:induction false} LoopBound(
    st: CycleState, w: Weapons, roster: Roster, dice: Dice, n: nat, isAlertRed: bool)
    ensures |Loop(st, w, roster, dice, n, isAlertRed).turns| <= Unused(st) + (if st.firstStrike then 1 else 0)
    ensures Fresh(st) ==> |Loop(st, w, roster, dice, n, isAlertRed).turns| <= Unused(st)
    decreases Unused(st), if st.firstStrike then 1 else 0
  {
    var r := Step(st, w, roster, dice, n, isAlertRed);
    if r.Fired? {
      StepShrinks(st, w, roster, dice, n, isAlertRed);
      LoopBound(r.state, w, r.roster, dice, n + 1, isAlertRed);
    }
  }

  /** Each turn's acting ship is one that had not acted yet on its side. */
  lemma {:induction false} LoopActorsFresh(
    st: CycleState, w: Weapons, roster: Roster, dice: Dice, n: nat, isAlertRed: bool)
    requires Fresh(st)
    ensures FreshActors(Loop(st, w, roster, dice, n, isAlertRed).turns, st.usedAttacker, st.usedDefender)
    decreases Unused(st), if st.firstStrike then 1 else 0
  {
    var r := Step(st, w, roster, dice, n, isAlertRed);
    if r.Fired? {
      StepShrinks(st, w, roster, dice, n, isAlertRed);
      LoopActorsFresh(r.state, w, r.roster, dice, n + 1, isAlertRed);
      var turns := Loop(st, w, roster, dice, n, isAlertRed).turns;
      assert turns[0] == r.turn;
      assert turns[1..] == Loop(r.state, w, r.roster, dice, n + 1, isAlertRed).turns;
    }
  }

  lemma {:induction false} LoopActorsInGroup(
    st: CycleState, w: Weapons, roster: Roster, dice: Dice, n: nat, isAlertRed: bool)
    ensures ActorsFromOwnGroup(Loop(st, w, roster, dice, n, isAlertRed).turns, st.attacker, st.defender)
    decreases Unused(st), if st.firstStrike then 1 else 0
  {
    var r := Step(st, w, roster, dice, n, isAlertRed);
    if r.Fired? {
      StepShrinks(st, w, roster, dice, n, isAlertRed);
      LoopActorsInGroup(r.state, w, r.roster, dice, n + 1, isAlertRed);
      var turns := Loop(st, w, roster, dice, n, isAlertRed).turns;
      assert turns[0] == r.turn;
      assert turns[1..] == Loop(r.state, w, r.roster, dice, n + 1, isAlertRed).turns;
    }
  }

  lemma {:induction false} LoopTargets(
    st: CycleState, w: Weapons, roster: Roster, dice: Dice, n: nat, isAlertRed: bool)
    ensures TargetsNarrow(Loop(st, w, roster, dice, n, isAlertRed).turns, st.attacker, st.defender)
    decreases Unused(st), if st.firstStrike then 1 else 0
  {
    var r := Step(st, w, roster, dice, n, isAlertRed);
    if r.Fired? {
      StepShrinks(st, w, roster, dice, n, isAlertRed);
      StepPhases(st, w, roster, dice, n, isAlertRed);
      LoopTargets(r.state, w, r.roster, dice, n + 1, isAlertRed);
      var turns := Loop(st, w, roster, dice, n, isAlertRed).turns;
      assert turns[0] == r.turn;
      assert turns[1..] == Loop(r.state, w, r.roster, dice, n + 1, isAlertRed).turns;
    }
  }

  /** A one-way cycle never lets a defender act. */
  lemma {:induction false} LoopOneWay(
    st: CycleState, w: Weapons, roster: Roster, dice: Dice, n: nat, isAlertRed: bool)
    requires st.oneWay
    ensures AttackersOnly(Loop(st, w, roster, dice, n, isAlertRed).turns)
    decreases Unused(st), if st.firstStrike then 1 else 0
  {
    var r := Step(st, w, roster, dice, n, isAlertRed);
    if r.Fired? {
      StepShrinks(st, w, roster, dice, n, isAlertRed);
      LoopOneWay(r.state, w, r.roster, dice, n + 1, isAlertRed);
      var turns := Loop(st, w, roster, dice, n, isAlertRed).turns;
      assert turns[0] == r.turn;
      assert turns[1..] == Loop(r.state, w, r.roster, dice, n + 1, isAlertRed).turns;
    }
  }

  /** The loop only ends once its stop conditions hold on the state and ships it ends with. */
  lemma {:induction false} LoopEndsHalted(
    st: CycleState, w: Weapons, roster: Roster, dice: Dice, n: nat, isAlertRed: bool)
    ensures var r := Loop(st, w, roster, dice, n, isAlertRed);
      Halts(r.state, w, r.roster)
    decreases Unused(st), if st.firstStrike then 1 else 0
  {
    var m := Step(st, w, roster, dice, n, isAlertRed);
    StepHalts(st, w, roster, dice, n, isAlertRed);
    if m.Fired? {
      StepShrinks(st, w, roster, dice, n, isAlertRed);
      LoopEndsHalted(m.state, w, m.roster, dice, n + 1, isAlertRed);
    }
  }

  /**
   * `turns` is what the loop plays from state `st` on turn `n` with ships
   * `roster`: each turn is the one `Step` plays on the state and ships the
   * previous turn left, and after the last one `Step` halts on state `last`
   * with ships `ships`.
   */
  ghost predicate Played(
    st: CycleState, w: Weapons, roster: Roster, dice: Dice, n: nat, isAlertRed: bool,
    turns: seq<Turn>, last: CycleState, ships: Roster)
    decreases |turns|
  {
    var m := Step(st, w, roster, dice, n, isAlertRed);
    if turns == [] then m.Halt? && last == st && (forall id :: ships(id) == roster(id))
    else m.Fired? && m.turn == turns[0] && Played(m.state, w, m.roster, dice, n + 1, isAlertRed, turns[1..], last, ships)
  }

  /** The loop's turns, final state and final ships are the ones `Step` plays, one after another. */
  lemma {:induction false} LoopPlays(
    st: CycleState, w: Weapons, roster: Roster, dice: Dice, n: nat, isAlertRed: bool)
    ensures var r := Loop(st, w, roster, dice, n, isAlertRed);
      Played(st, w, roster, dice, n, isAlertRed, r.turns, r.state, r.roster)
    decreases Unused(st), if st.firstStrike then 1 else 0
  {
    var m := Step(st, w, roster, dice, n, isAlertRed);
    if m.Fired? {
      StepShrinks(st, w, roster, dice, n, isAlertRed);
      LoopPlays(m.state, w, m.roster, dice, n + 1, isAlertRed);
      var r := Loop(st, w, roster, dice, n, isAlertRed);
      var rest := Loop(m.state, w, m.roster, dice, n + 1, isAlertRed);
      assert r.turns[0] == m.turn;
      assert r.turns[1..] == rest.turns;
    }
  }

  /** A log grown by a first turn's lines and then by the rest's is the old log followed by all their lines. */
  lemma LinesStep(turns: seq<Turn>, start: seq<Msg>, mid: seq<Msg>, final: seq<Msg>)
    requires turns != []
    requires mid == start + turns[0].Lines()
    requires final == mid + LinesOf(turns[1..])
    ensures final == start + LinesOf(turns)
  {
    assert start + (turns[0].Lines() + LinesOf(turns[1..])) == (start + turns[0].Lines()) + LinesOf(turns[1..]);
  }

  /** The loop's log is the log it started with followed by every played turn's lines, in turn order. */
  lemma {:induction false} LoopLog(
    st: CycleState, w: Weapons, roster: Roster, dice: Dice, n: nat, isAlertRed: bool)
    ensures var r := Loop(st, w, roster, dice, n, isAlertRed);
      r.state.messages == st.messages + LinesOf(r.turns)
    decreases Unused(st), if st.firstStrike then 1 else 0
  {
    var m := Step(st, w, roster, dice, n, isAlertRed);
    if m.Fired? {
      StepShrinks(st, w, roster, dice, n, isAlertRed);
      LoopLog(m.state, w, m.roster, dice, n + 1, isAlertRed);
      var r := Loop(st, w, roster, dice, n, isAlertRed);
      var rest := Loop(m.state, w, m.roster, dice, n + 1, isAlertRed);
      assert r.turns[0] == m.turn;
      assert r.turns[1..] == rest.turns;
      LinesStep(r.turns, st.messages, m.state.messages, r.state.messages);
    } else {
      assert st.messages + [] == st.messages;
    }
  }

  /** The loop plays no turn exactly when its stop conditions hold at the start; a pending first strike is the attacker's. */
  lemma LoopStart(st: CycleState, w: Weapons, roster: Roster, dice: Dice, n: nat, isAlertRed: bool)
    ensures var turns := Loop(st, w, roster, dice, n, isAlertRed).turns;
      && (turns == [] <==> Halts(st, w, roster))
      && (st.firstStrike && turns != [] ==> turns[0].side == Attacker)
  {
    StepHalts(st, w, roster, dice, n, isAlertRed);
  }

  /** The messages and ship states left by the readiness step, and whom it was asked for, in order. */
  datatype Readied = Readied(roster: Roster, messages: seq<Msg>, asked: seq<ShipId>)

  /** FightLib::ready for each ship of `ids` in turn, each message list merged into the log. */
  function ReadyAll(w: Weapons, roster: Roster, ids: seq<ShipId>): (r: Readied)
    ensures r.asked == ids
    ensures ids != [] ==> Extends(w.ready(roster, ids[0]).messages, r.messages)
    decreases |ids|
  {
    if ids == [] then Readied(roster, [], [])
    else
      var first := w.ready(roster, ids[0]);
      var rest := ReadyAll(w, first.roster, ids[1..]);
      Readied(rest.roster, first.messages + rest.messages, [ids[0]] + rest.asked)
  }

  /**
   * Readying `a + b` is readying `a` and then `b` from the ships as `a` left
   * them: the messages of the first part come first, and the ship states are
   * threaded through.
   */
  lemma {:induction false} ReadyAllConcat(w: Weapons, roster: Roster, a: seq<ShipId>, b: seq<ShipId>)
    ensures var first := ReadyAll(w, roster, a);
      var second := ReadyAll(w, first.roster, b);
      ReadyAll(w, roster, a + b) == Readied(second.roster, first.messages + second.messages, a + b)
    decreases |a|
  {
    if a == [] {
      assert a + b == b;
    } else {
      var head := w.ready(roster, a[0]);
      assert (a + b)[0] == a[0] && (a + b)[1..] == a[1..] + b;
      ReadyAllConcat(w, head.roster, a[1..], b);
      var first := ReadyAll(w, head.roster, a[1..]);
      var second := ReadyAll(w, first.roster, b);
      assert head.messages + (first.messages + second.messages) == (head.messages + first.messages) + second.messages;
    }
  }

  /**
   * The readiness log grows one ship at a time: readying one more ship appends
   * exactly the lines `ready` gives for it, on the ships as the earlier ones left them.
   */
  lemma ReadyAllAppend(w: Weapons, roster: Roster, ids: seq<ShipId>, x: ShipId)
    ensures var before := ReadyAll(w, roster, ids);
      var last := w.ready(before.roster, x);
      && ReadyAll(w, roster, ids + [x]).messages == before.messages + last.messages
      && ReadyAll(w, roster, ids + [x]).roster == last.roster
  {
    ReadyAllConcat(w, roster, ids, [x]);
    var before := ReadyAll(w, roster, ids);
    var last := w.ready(before.roster, x);
    assert ReadyAll(w, before.roster, [x]) == Readied(last.roster, last.messages + [], [x]);
    assert last.messages + [] == last.messages;
  }

  /**
   * The two readiness passes of `cycle` — attackers, then defenders unless
   * one-way — log what one pass over the joined lists logs.
   */
  lemma ReadinessJoined(st: CycleState, w: Weapons, roster: Roster)
    ensures var attackers := ReadyAll(w, roster, st.attacker);
      var defenders := if st.oneWay then Readied(attackers.roster, [], []) else ReadyAll(w, attackers.roster, st.defender);
      attackers.messages + defenders.messages == ReadyAll(w, roster, st.attacker + (if st.oneWay then [] else st.defender)).messages
  {
    if st.oneWay {
      assert st.attacker + [] == st.attacker;
      assert ReadyAll(w, roster, st.attacker).messages + [] == ReadyAll(w, roster, st.attacker).messages;
    } else {
      ReadyAllConcat(w, roster, st.attacker, st.defender);
    }
  }

  /** A log that extends two merges in a row extends the old log followed by both message lists. */
  lemma MergedTwice(st: CycleState, first: seq<Msg>, second: seq<Msg>, final: seq<Msg>)
    requires Extends(st.AddMessageMerge(first).AddMessageMerge(second).messages, final)
    ensures Extends(st.messages, final) && Extends(st.messages + (first + second), final)
  {
    var merged := st.AddMessageMerge(first);
    var prepared := merged.AddMessageMerge(second);
    ExtendsSplit(st.messages, merged.messages);
    ExtendsSplit(merged.messages, prepared.messages);
    assert prepared.messages == st.messages + (first + second);
    ExtendsTransitive(st.messages, prepared.messages, final);
  }

  /** What one call of `cycle` leaves behind, with the save calls it made in order. */
  datatype CycleResult = CycleResult(
    state: CycleState,
    roster: Roster,
    readied: seq<ShipId>,
    turns: seq<Turn>,
    saves: seq<ShipId>)

  /**
   * `cycle`: readiness for every attacker and, unless one-way, every defender;
   * then the turn loop; then one save per entry of the attacker list followed by
   * one per entry of the defender list.
   */
  function Cycle(st: CycleState, w: Weapons, roster: Roster, dice: Dice, isAlertRed: bool): (r: CycleResult)
    ensures r.readied == st.attacker + (if st.oneWay then [] else st.defender)
    ensures r.saves == st.attacker + st.defender
    ensures Extends(st.messages, r.state.messages)
    ensures Extends(st.messages + ReadyAll(w, roster, st.attacker + (if st.oneWay then [] else st.defender)).messages, r.state.messages)
    ensures r.state.attacker == st.attacker && r.state.defender == st.defender && r.state.oneWay == st.oneWay
  {
    var attackers := ReadyAll(w, roster, st.attacker);
    var defenders := if st.oneWay then Readied(attackers.roster, [], []) else ReadyAll(w, attackers.roster, st.defender);
    var prepared := st.AddMessageMerge(attackers.messages).AddMessageMerge(defenders.messages);
    var battle := Loop(prepared, w, defenders.roster, dice, 0, isAlertRed);
    MergedTwice(st, attackers.messages, defenders.messages, battle.state.messages);
    ReadinessJoined(st, w, roster);
    CycleResult(battle.state, battle.roster, attackers.asked + defenders.asked, battle.turns, st.attacker + st.defender)
  }

  /** The state `cycle` hands to its loop: the readiness messages merged, nothing else changed. */
  lemma CyclePreparesLoop(st: CycleState, w: Weapons, roster: Roster, dice: Dice, isAlertRed: bool)
    ensures var attackers := ReadyAll(w, roster, st.attacker);
      var defenders := if st.oneWay then Readied(attackers.roster, [], []) else ReadyAll(w, attackers.roster, st.defender);
      var prepared := st.AddMessageMerge(attackers.messages).AddMessageMerge(defenders.messages);
      && prepared == st.(messages := st.messages + attackers.messages + defenders.messages)
      && Cycle(st, w, roster, dice, isAlertRed).turns == Loop(prepared, w, defenders.roster, dice, 0, isAlertRed).turns
      && Cycle(st, w, roster, dice, isAlertRed).state == Loop(prepared, w, defenders.roster, dice, 0, isAlertRed).state
  {
  }

  /**
   * The log `cycle` leaves: the log it found, the readiness lines of every ship
   * asked, then each played turn's energy and projectile lines in turn order.
   */
  lemma CycleLog(st: CycleState, w: Weapons, roster: Roster, dice: Dice, isAlertRed: bool)
    ensures var r := Cycle(st, w, roster, dice, isAlertRed);
      r.state.messages
      == st.messages + ReadyAll(w, roster, st.attacker + (if st.oneWay then [] else st.defender)).messages
         + LinesOf(r.turns)
  {
    CyclePreparesLoop(st, w, roster, dice, isAlertRed);
    var attackers := ReadyAll(w, roster, st.attacker);
    var defenders := if st.oneWay then Readied(attackers.roster, [], []) else ReadyAll(w, attackers.roster, st.defender);
    var prepared := st.(messages := st.messages + attackers.messages + defenders.messages);
    LoopLog(prepared, w, defenders.roster, dice, 0, isAlertRed);
    ReadinessJoined(st, w, roster);
    assert st.messages + attackers.messages + defenders.messages == st.messages + (attackers.messages + defenders.messages);
  }

  /**
   * `cycle` returns only once the loop's stop conditions hold, and its turns are
   * the ones `Step` plays from the prepared state on the ships readiness left.
   */
  lemma CycleEndsHalted(st: CycleState, w: Weapons, roster: Roster, dice: Dice, isAlertRed: bool)
    ensures var r := Cycle(st, w, roster, dice, isAlertRed);
      var attackers := ReadyAll(w, roster, st.attacker);
      var defenders := if st.oneWay then Readied(attackers.roster, [], []) else ReadyAll(w, attackers.roster, st.defender);
      var prepared := st.(messages := st.messages + attackers.messages + defenders.messages);
      && Halts(r.state, w, r.roster)
      && Played(prepared, w, defenders.roster, dice, 0, isAlertRed, r.turns, r.state, r.roster)
  {
    CyclePreparesLoop(st, w, roster, dice, isAlertRed);
    var attackers := ReadyAll(w, roster, st.attacker);
    var defenders := if st.oneWay then Readied(attackers.roster, [], []) else ReadyAll(w, attackers.roster, st.defender);
    var prepared := st.(messages := st.messages + attackers.messages + defenders.messages);
    LoopEndsHalted(prepared, w, defenders.roster, dice, 0, isAlertRed);
    LoopPlays(prepared, w, defenders.roster, dice, 0, isAlertRed);
  }

  /**
   * A cycle started by `init`: at most |attacker| + |defender| turns, no ship
   * acts twice for one side, used sets stay inside their groups, the first turn
   * is the attacker's, one-way cycles let only attackers act, and every
   * projectile phase aims at a subset of its energy phase's targets.
   */
  lemma CycleAfterInit(
    attacker: seq<ShipId>, defender: seq<ShipId>, oneWay: bool,
    w: Weapons, roster: Roster, dice: Dice, isAlertRed: bool)
    ensures var r := Cycle(Init(attacker, defender, oneWay), w, roster, dice, isAlertRed);
      && |r.turns| <= |attacker| + |defender|
      && FreshActors(r.turns, {}, {})
      && UsedWithin(r.state)
      && (r.turns != [] ==> r.turns[0].side == Attacker)
      && (oneWay ==> AttackersOnly(r.turns))
      && ActorsFromOwnGroup(r.turns, attacker, defender)
      && TargetsNarrow(r.turns, attacker, defender)
  {
    var st := Init(attacker, defender, oneWay);
    CyclePreparesLoop(st, w, roster, dice, isAlertRed);
    var attackers := ReadyAll(w, roster, st.attacker);
    var defenders := if st.oneWay then Readied(attackers.roster, [], []) else ReadyAll(w, attackers.roster, st.defender);
    var prepared := st.(messages := st.messages + attackers.messages + defenders.messages);
    assert Unused(prepared) == Unused(st);
    LoopBound(prepared, w, defenders.roster, dice, 0, isAlertRed);
    LoopActorsFresh(prepared, w, defenders.roster, dice, 0, isAlertRed);
    LoopKeepsUsedWithin(prepared, w, defenders.roster, dice, 0, isAlertRed);
    LoopStart(prepared, w, defenders.roster, dice, 0, isAlertRed);
    LoopActorsInGroup(prepared, w, defenders.roster, dice, 0, isAlertRed);
    LoopTargets(prepared, w, defenders.roster, dice, 0, isAlertRed);
    if oneWay {
      LoopOneWay(prepared, w, defenders.roster, dice, 0, isAlertRed);
    }
  }

  /** With an empty attacker group no turn is played and the log holds only readiness messages. */
  lemma EmptyAttackerGroup(defender: seq<ShipId>, oneWay: bool, w: Weapons, roster: Roster, dice: Dice, isAlertRed: bool)
    ensures var r := Cycle(Init([], defender, oneWay), w, roster, dice, isAlertRed);
      && r.turns == []
      && r.state.messages
         == (if oneWay then [] else ReadyAll(w, ReadyAll(w, roster, []).roster, defender).messages)
      && r.saves == defender
  {
    var st := Init([], defender, oneWay);
    CyclePreparesLoop(st, w, roster, dice, isAlertRed);
    var attackers := ReadyAll(w, roster, st.attacker);
    var defenders := if st.oneWay then Readied(attackers.roster, [], []) else ReadyAll(w, attackers.roster, st.defender);
    var prepared := st.(messages := st.messages + attackers.messages + defenders.messages);
    LoopStart(prepared, w, defenders.roster, dice, 0, isAlertRed);
    assert !HasLive(prepared, w, defenders.roster, Attacker);
  }

  /**
   * The first strike does not apply the firing test: in a one-against-one
   * cycle the lone attacker takes the first turn whenever both ships are live,
   * whether or not it could fire.
   */
  lemma FirstStrikeSkipsCanFire(
    a: ShipId, d: ShipId, w: Weapons, roster: Roster, dice: Dice, n: nat, isAlertRed: bool)
    requires w.live(roster(a)) && w.live(roster(d))
    ensures var r := Step(Init([a], [d], false), w, roster, dice, n, isAlertRed);
      r.Fired? && r.turn.side == Attacker && r.turn.actor == a
  {
    assert FilterInactive(w, roster, [a]) == [a];
    assert FilterInactive(w, roster, [d]) == [d];
  }
}

=== FILE: foundation.dfy ===
/** Failure-carrying values used where the game code throws or returns null. */
module Results {

  datatype Option<+T> = None | Some(value: T)

  /** `Failure` stands for an exception that leaves the operation early. */
  datatype Result<+R, +E> = Success(value: R) | Failure(error: E)
}

/** Order-preserving sequence helpers (PHP's array_filter and array_merge). */
module Seqs {

  /** The elements of `s` that satisfy `p`, in their original order. */
  function Filter<T(==,!new)>(s: seq<T>, p: T -> bool): (r: seq<T>)
    ensures |r| <= |s|
    ensures forall x :: x in r <==> x in s && p(x)
  {
    if s == [] then []
    else (if p(s[0]) then [s[0]] else []) + Filter(s[1..], p)
  }

  /** The distinct elements of `s`. */
  function Elements<T(!new)>(s: seq<T>): set<T>
  {
    set x | x in s
  }

  lemma {:induction false} ElementsBound<T(!new)>(s: seq<T>)
    ensures |Elements(s)| <= |s|
    decreases |s|
  {
    if s != [] {
      ElementsBound(s[1..]);
      assert Elements(s) == {s[0]} + Elements(s[1..]);
    } else {
      assert Elements(s) == {};
    }
  }

  /** True when `a` is a prefix of `b`: `b` only ever appends to `a`. */
  predicate Extends<T(==)>(a: seq<T>, b: seq<T>)
  {
    |a| <= |b| && b[..|a|] == a
  }

  /** An extension is the prefix followed by what was appended. */
  lemma ExtendsSplit<T>(a: seq<T>, b: seq<T>)
    requires Extends(a, b)
    ensures b == a + b[|a|..]
  {
    assert b == b[..|a|] + b[|a|..];
  }

  /** Appending to a non-empty sequence keeps its head and appends to its tail. */
  lemma AppendKeepsHead<T>(s: seq<T>, t: T)
    requires s != []
    ensures (s + [t])[0] == s[0] && (s + [t])[1..] == s[1..] + [t]
  {
  }

  lemma ExtendsTransitive<T>(a: seq<T>, b: seq<T>, c: seq<T>)
    requires Extends(a, b) && Extends(b, c)
    ensures Extends(a, c)
  {
    assert c[..|a|] == c[..|b|][..|a|];
  }
}

/** The parts of a ship entity that the combat and alert logic read or write. */
module Ships {
  import opened Results
  import Seqs

  type ShipId = int

  /** The system types the core names; every other system type is `OtherSystem`. */
  datatype SystemType =
    | Shields
    | Nbs
    | Phaser
    | Torpedo
    | Cloak
    | WarpDrive
    | LifeSupport
    | TroopQuarters
    | OtherSystem(code: int)

  datatype AlertState = Green | Yellow | Red

  datatype Ship = Ship(
    id: ShipId,
    isConstruction: bool,
    hasEnoughCrew: bool,
    alert: AlertState,
    /** Installed systems, in the order the entity lists them. */
    systems: seq<SystemType>,
    /** The subset of installed systems that are switched on. */
    active: set<SystemType>,
    eps: int,
    disabled: bool,
    canAttack: bool,
    /** True when the tractor beam is emitted by this ship (not received). */
    tractorFromShip: bool,
    tractorPartner: Option<ShipId>)

  predicate HasSystem(ship: Ship, t: SystemType)
  {
    t in ship.systems
  }

  predicate NbsOn(ship: Ship)
  {
    Nbs in ship.active
  }

  predicate CloakOn(ship: Ship)
  {
    Cloak in ship.active
  }

  predicate WarpOn(ship: Ship)
  {
    WarpDrive in ship.active
  }

  /** Installed systems that are switched on, in installation order. */
  function ActiveSystems(ship: Ship): (r: seq<SystemType>)
    ensures forall t :: t in r <==> HasSystem(ship, t) && t in ship.active
  {
    Seqs.Filter(ship.systems, t => t in ship.active)
  }

  /** The entity's own firing precondition used by the combat cycle. */
  predicate CanFire(ship: Ship)
  {
    !ship.disabled && ship.eps != 0 && NbsOn(ship) && ship.canAttack
  }
}

=== FILE: shutdown.dfy ===
/**
 * The shutdown action: switch off everything but life support and troop
 * quarters through the helper's single-ship `deactivate`, force the alert to
 * Green, and — only if the ship was warping or cloaked when the action began —
 * let hostile ships on red alert react, to the ship and to the ship it tows.
 */
module ShutdownAction {
  import opened Results
  import opened Seqs
  import opened Ships
  import opened ActivatorDeactivator

  /** A system type the shutdown leaves running. */
  predicate Exempt(t: SystemType)
  {
    t == LifeSupport || t == TroopQuarters
  }

  /** The systems the shutdown asks the helper to switch off, in the entity's order. */
  function ShutdownTargets(ship: Ship): (r: seq<SystemType>)
    ensures forall t :: t in r <==> HasSystem(ship, t) && t in ship.active && !Exempt(t)
    ensures |r| <= |ship.systems|
  {
    Filter(ActiveSystems(ship), t => !Exempt(t))
  }

  /** The ship this one tows, captured before anything is switched off. */
  function Towed(ship: Ship): (r: Option<ShipId>)
    ensures r.Some? ==> ship.tractorFromShip && ship.tractorPartner == r
    ensures ship.tractorFromShip ==> r == ship.tractorPartner
  {
    if ship.tractorFromShip then ship.tractorPartner else None
  }

  /** Whether the shutdown lets red-alert ships react: warp or cloak was on beforehand. */
  predicate TriggersAlertRed(ship: Ship)
  {
    WarpOn(ship) || CloakOn(ship)
  }

  /** The requests issued so far: the ship after them, their lines and saves, and an escaped error. */
  datatype Requests = Requests(
    ship: Ship,
    infos: seq<Info>,
    saves: seq<ShipId>,
    issued: seq<SystemType>,
    raised: Option<SystemError>)

  /**
   * One `deactivate` request per system, in order, each saving the ship; an error
   * the helper does not absorb ends the action at that request.
   */
  function DeactivateRequests(c: Collaborators, ship: Ship, systems: seq<SystemType>): (r: Requests)
    ensures |r.issued| <= |systems| && r.issued == systems[..|r.issued|]
    ensures forall t :: t in r.issued ==> t in systems
    ensures r.raised.None? ==> r.issued == systems && |r.saves| == |systems|
    ensures r.raised.Some? ==> |r.issued| > 0 && |r.saves| == |r.issued| - 1 && !DeactivationHandled(r.raised.value)
    ensures forall k :: 0 <= k < |r.saves| ==> r.saves[k] == ship.id
    ensures SameHull(ship, r.ship)
    decreases |systems|
  {
    if systems == [] then Requests(ship, [], [], [], None)
    else
      var d := Deactivate(c, ship, systems[0]);
      if d.raised.Some? then Requests(ship, [], [], [systems[0]], d.raised)
      else
        var rest := DeactivateRequests(c, d.ship, systems[1..]);
        Requests(rest.ship, d.infos + rest.infos, d.saves + rest.saves, [systems[0]] + rest.issued, rest.raised)
  }

  /**
   * The lines of the requests: one deactivation report per completed request,
   * about this ship and naming the requested system, in request order.
   */
  lemma {:induction false} DeactivateRequestsReports(c: Collaborators, ship: Ship, systems: seq<SystemType>)
    ensures var r := DeactivateRequests(c, ship, systems);
      && |r.infos| == |r.saves|
      && forall k :: 0 <= k < |r.infos| ==>
        r.infos[k].DeactivationReport? && r.infos[k].ship == ship.id && r.infos[k].system == r.issued[k]
    decreases |systems|
  {
    if systems != [] {
      var d := Deactivate(c, ship, systems[0]);
      if d.raised.None? {
        var rest := DeactivateRequests(c, d.ship, systems[1..]);
        DeactivateRequestsReports(c, d.ship, systems[1..]);
        var r := DeactivateRequests(c, ship, systems);
        assert r.infos == d.infos + rest.infos && r.issued == [systems[0]] + rest.issued;
        forall k | 1 <= k < |r.infos|
          ensures r.infos[k] == rest.infos[k - 1] && r.issued[k] == rest.issued[k - 1]
        {
        }
      }
    }
  }

  /**
   * What `handle` leaves behind: the ship, the lines, the saves, the requests,
   * the alert-red checks, the view, and the error that escaped, if any.
   */
  datatype ShutdownRun = ShutdownRun(
    ship: Ship,
    infos: seq<Info>,
    saves: seq<ShipId>,
    requested: seq<SystemType>,
    alertRedChecks: seq<ShipId>,
    showShip: bool,
    raised: Option<SystemError>)

  /**
   * `handle`.  `destroyedByAlertRed` is what the red-alert attack cycles did to
   * the ship, which only the collaborator running them knows.  An error the
   * helper does not absorb ends the action at that request: the saves and lines
   * of the requests before it stand, and the alert, the closing line, the
   * red-alert checks and the view are never reached.
   */
  function Handle(c: Collaborators, ship: Ship, destroyedByAlertRed: bool): (r: ShutdownRun)
    ensures |r.requested| <= |ShutdownTargets(ship)| && r.requested == ShutdownTargets(ship)[..|r.requested|]
    ensures LifeSupport !in r.requested && TroopQuarters !in r.requested
    ensures forall k :: 0 <= k < |r.saves| ==> r.saves[k] == ship.id
    ensures r.saves == DeactivateRequests(c, ship, ShutdownTargets(ship)).saves
    ensures r.ship.id == ship.id && r.ship.systems == ship.systems
    ensures r.raised.None? ==> r.requested == ShutdownTargets(ship)
    ensures r.raised.None? ==> |r.saves| == |r.requested|
    ensures r.raised.None? ==> r.ship.alert == Green
    ensures r.raised.None? ==> r.infos != [] && r.infos[|r.infos| - 1] == EnergyMinimised
    ensures r.raised.None? ==> (r.alertRedChecks != [] <==> TriggersAlertRed(ship))
    ensures r.raised.None? && TriggersAlertRed(ship) ==>
      r.alertRedChecks == [ship.id] + (if Towed(ship).Some? then [Towed(ship).value] else [])
    ensures r.raised.None? ==> (r.showShip <==> !(TriggersAlertRed(ship) && destroyedByAlertRed))
    ensures r.raised.Some? ==> !DeactivationHandled(r.raised.value) && |r.requested| > 0 && |r.saves| == |r.requested| - 1
    ensures r.raised.Some? ==> r.infos == DeactivateRequests(c, ship, ShutdownTargets(ship)).infos
    ensures r.raised.Some? ==> r.ship.alert == ship.alert && r.alertRedChecks == [] && !r.showShip
    ensures r.raised == DeactivateRequests(c, ship, ShutdownTargets(ship)).raised
    ensures r.raised.None? ==> r.infos == DeactivateRequests(c, ship, ShutdownTargets(ship)).infos + [EnergyMinimised]
    ensures r.raised.None? ==> r.ship == DeactivateRequests(c, ship, ShutdownTargets(ship)).ship.(alert := Green)
    ensures r.raised.Some? ==> r.ship == DeactivateRequests(c, ship, ShutdownTargets(ship)).ship
  {
    var towed := Towed(ship);
    var trigger := TriggersAlertRed(ship);
    var requests := DeactivateRequests(c, ship, ShutdownTargets(ship));
    assert LifeSupport !in requests.issued && TroopQuarters !in requests.issued;
    if requests.raised.Some? then
      ShutdownRun(requests.ship, requests.infos, requests.saves, requests.issued, [], false, requests.raised)
    else
      var checks := if !trigger then [] else [ship.id] + (if towed.Some? then [towed.value] else []);
      ShutdownRun(
        requests.ship.(alert := Green),
        requests.infos + [EnergyMinimised],
        requests.saves,
        requests.issued,
        checks,
        !(trigger && destroyedByAlertRed),
        None)
  }

  /**
   * A shutdown cut short by an escaped error keeps the reports and saves of the
   * requests before it — one each per completed request — and never reaches
   * the closing energy line.
   */
  lemma ShutdownAbortKeepsPartialWork(c: Collaborators, ship: Ship, destroyedByAlertRed: bool)
    ensures var r := Handle(c, ship, destroyedByAlertRed);
      r.raised.Some? ==>
        && |r.infos| == |r.saves| == |r.requested| - 1
        && (forall k :: 0 <= k < |r.infos| ==>
              r.infos[k].DeactivationReport? && r.infos[k].ship == ship.id && r.infos[k].system == r.requested[k])
        && EnergyMinimised !in r.infos
  {
    DeactivateRequestsReports(c, ship, ShutdownTargets(ship));
  }

  lemma {:induction false} DeactivateRequestsClear(c: Collaborators, ship: Ship, systems: seq<SystemType>)
    requires DeactivationSound(c)
    requires forall t :: t in systems ==> NeverRefuses(c, t)
    ensures var r := DeactivateRequests(c, ship, systems);
      && r.raised.None?
      && r.ship.active <= ship.active
      && forall t :: t in systems ==> t !in r.ship.active
    decreases |systems|
  {
    if systems != [] {
      var t := systems[0];
      assert NeverRefuses(c, t);
      var d := Deactivate(c, ship, t);
      assert t !in d.ship.active && d.ship.active <= ship.active;
      DeactivateRequestsClear(c, d.ship, systems[1..]);
    }
  }

  /**
   * When the manager switches off whatever it is asked to, a shutdown leaves
   * nothing installed running but life support and troop quarters.
   */
  lemma ShutdownLeavesOnlyExempt(c: Collaborators, ship: Ship, destroyedByAlertRed: bool)
    requires DeactivationSound(c)
    requires forall t :: !Exempt(t) ==> NeverRefuses(c, t)
    ensures var r := Handle(c, ship, destroyedByAlertRed);
      && r.raised.None?
      && r.ship.active <= ship.active
      && forall t :: HasSystem(ship, t) && t in r.ship.active ==> Exempt(t)
  {
    DeactivateRequestsClear(c, ship, ShutdownTargets(ship));
  }

  /**
   * The shutdown reaches Green where `setAlertStateShip` would refuse: for a
   * construction or an understaffed ship the helper leaves the alert alone,
   * while the shutdown still forces it to Green.
   */
  lemma ShutdownBypassesAlertGuards(c: Collaborators, ship: Ship, destroyedByAlertRed: bool)
    requires ship.isConstruction || !ship.hasEnoughCrew
    ensures SetAlertStateShip(c, ship, Green).ship == ship
    ensures var r := Handle(c, ship, destroyedByAlertRed);
      r.raised.None? ==> r.ship.alert == Green
  {
  }

  /**
   * The alert-red trigger is read before the systems go off: a warping ship
   * whose warp drive the shutdown switches off still gets its red-alert checks.
   */
  lemma TriggerReadBeforeShutdown(c: Collaborators, ship: Ship, destroyedByAlertRed: bool)
    requires WarpOn(ship) && HasSystem(ship, WarpDrive)
    requires DeactivationSound(c)
    requires forall t :: !Exempt(t) ==> NeverRefuses(c, t)
    ensures var r := Handle(c, ship, destroyedByAlertRed);
      && r.raised.None?
      && !WarpOn(r.ship)
      && r.alertRedChecks != []
      && r.alertRedChecks[0] == ship.id
  {
    ShutdownLeavesOnlyExempt(c, ship, destroyedByAlertRed);
  }
}
